=== FILE: README.md ===
# Prediction-market server core, modelled in Dafny

This project models the server core of a prediction-market web app. The app is a Nuxt/h3 server over Sequelize and PostgreSQL. The core covered here is:

- the **wallet ledger**: placing a bet, requesting a withdrawal and recording a deposit request. Each is one database transaction that either commits in full or rolls back;
- the **ORM rows** these handlers touch: users, events, outcomes, bets, transactions and wallet-history (journal) rows;
- **event creation** by users (the event waits for approval) and by administrators (the event is ACTIVE at once);
- the **admin access guard**, with its table from URL prefix to permission;
- the **preferences** endpoint, which does find-or-create and then a field-by-field merge;
- the validators and stored forms of **tags**, **reports**, **templates** and **admin notifications**, plus the notification fan-out;
- the **pagination** arithmetic and query validation of the admin report listing.

Every handler is a pure function (or a method, for the notification fan-out) from a database state and a request to a `Reply(state, result)`. `Http.RolledBack` states the rollback rule: a failed request leaves the state exactly as it was. Two handlers run without a transaction and are the exceptions: the notification fan-out and the preferences PUT. Ids come from per-table counters kept in the state, and they start at 1. A value too long for a `STRING` column (VARCHAR(255)) fails its insert, and the handler answers 500 (`Http.FitsVarchar`). JavaScript semantics are written out where the handlers depend on them: truthiness (`Http.Field`, `Http.Falsy`), `String.prototype.trim` with the ECMAScript whitespace set (`Text.Trim`), `length` in UTF-16 code units (`Text.JsLength`), and `toUpperCase` as far as comparing against `ASC`/`DESC` needs (`Pagination.UpperChar`).

The main results:

- `Journal.Conservation`: after any sequence of ledger and event-creation requests, each user's balance equals the old balance plus the signed amounts of that user's new journal rows. A pending deposit row counts zero. The balance is also never negative.
- `Journal.RunJournal`: the journal, bet and transaction tables only grow. Each user's new rows form an unbroken before→after chain.
- `AdminGuard.Guard`: the guard's decision, in its 401/403/403 order. Access is granted exactly when the user holds a required permission or `system_admin`.
- `Pagination.PagesCoverAll`: pages 1 to `totalPages`, concatenated, are exactly the filtered result set.
- `Notifications.FanOut` and `Notifications.Notify`: the fan-out writes one unread notification per existing recipient. It has no transaction, so a failing insert answers 500 while the other rows stay.

## Model

| member | source | states |
|---|---|---|
| Entities.NewUser | server/models/User.ts:24-48 | a new user has balance 0, role USER, status ACTIVE, no referral code and no permissions |
| Entities.NewOutcome | server/models/Outcome.ts:51-64 | a new outcome has total amount 0, zero bets and is not the winner |
| Wallet.CheckAmount | server/api/bets/index.post.ts:43-66 | an amount passes exactly when it lies in [1000, 1 000 000 000]; every refusal is a 400 |
| Wallet.PlaceBet | server/api/bets/index.post.ts:14-151 | 401 without a user; 400 when an id or the amount is missing or falsy (an id that is present, such as the string "0", goes on to the lookups); 400 for an out-of-range stake; 400 for an event that is missing or not ACTIVE; 404 for a missing user row; 400 for insufficient funds exactly when the balance is below the stake; 500 when the outcome does not exist, since the bet insert then breaks its foreign key. On success: balance debited by the stake and never negative; exactly one PENDING bet and one BET journal row (amount −stake, before/after the old/new balance, reference the bet id, the next row id) appended; only the bet and row counters advance; nothing else changes. Any failure rolls back |
| Wallet.PlaceBetSucceedsIff | server/api/bets/index.post.ts:17-151 | a bet is accepted if and only if the caller is signed in, all fields are present with non-zero ids, the stake is in range, the event is ACTIVE, the user exists, the balance covers the stake and the named outcome exists |
| Wallet.PlaceBetIgnoresOutcome | server/api/bets/index.post.ts:70-113 | among existing outcomes, which one a bet names does not decide whether it is accepted: the handler never checks that the outcome belongs to the event |
| Wallet.Withdraw | server/api/wallet/withdraw.post.ts:10-140 | 401 without a user; 400 for a missing or out-of-range amount; accepted if and only if the user exists and can cover it. On success: balance debited at once; one PENDING WITHDRAWAL transaction and one WITHDRAWAL row (−amount, reference the transaction) appended. Any failure rolls back |
| Wallet.Deposit | server/api/wallet/deposit.post.ts:11-143 | the user table never changes; 400 for a missing amount or transaction hash; 404 for a missing user row; 500 for a hash longer than its 255-character column; accepted exactly otherwise, with one PENDING DEPOSIT transaction carrying the hash and one DEPOSIT row with +amount whose before and after balances are equal; only the transaction and row counters advance. Any failure rolls back |
| EventCreation.OutcomeRows | server/api/events/index.post.ts:53-64 | one outcome row per requested title, with the new event's id, zero totals and not a winner; the model numbers them consecutively in title order |
| EventCreation.CreateEvent | server/api/events/index.post.ts:16-99 | 401 without a user; 500 when a required field or the creator row is missing, when the deadline is not a valid date, or when the event title or an outcome title is longer than its 255-character column; success exactly otherwise, storing the given title, description and deadline in one PENDING_APPROVAL event, not featured, created by the caller, plus one outcome per title with consecutive fresh ids; only the event and outcome counters advance; on failure event and outcomes roll back together |
| EventCreation.CreateCustomEvent | server/api/admin/events/create-custom.post.ts:15-59 | 401 without a user; 400 without a title, with a missing or falsy deadline (a numeric 0 among them), or without at least two outcomes; past those checks, success exactly when the description and the creator row exist, the deadline is a valid date and every title fits its 255-character column (else 500); on success the event record is stated in full: the given title, description and deadline, ACTIVE, created by the caller, featured only when `isFeatured` is true; plus one outcome per title with consecutive fresh ids; rollback on failure |
| Journal.StepJournal | server/api/bets/index.post.ts:102-126 | one request appends at most one journal row; no balance moves without one, and the row's user moves from the row's before to its after balance |
| Journal.BalanceWriteKeepsUsersValid | server/models/User.ts:15-39 | writing one user's balance keeps wallet addresses and referral codes unique |
| Journal.PlaceBetValid | server/api/bets/index.post.ts:99-126 | bet placement keeps the ledger invariant: balances non-negative, every journal row posted, ids below their counters, and every bet's user, event and outcome present |
| Journal.WithdrawValid | server/api/wallet/withdraw.post.ts:88-118 | a withdrawal keeps the ledger invariant |
| Journal.DepositValid | server/api/wallet/deposit.post.ts:92-118 | a deposit request keeps the ledger invariant |
| Journal.StepValid | server/models/Bet.ts:14-43 | every request of the core keeps the ledger invariant, including the foreign keys of `bets` |
| Journal.StepChain | server/api/bets/index.post.ts:118-126 | the rows one request appends chain each user's balance from before to after |
| Journal.RunJournal | server/models/WalletHistory.ts:8-62 | over any request sequence: the invariant holds, users neither appear nor vanish, old rows are kept, and each user's new rows chain from the old to the new balance |
| Journal.ChainSum | server/models/WalletHistory.ts:29-43 | posted rows that chain from one balance to another move it by exactly their summed effect |
| Journal.Conservation | server/models/WalletHistory.ts:29-43 | a user's balance after any sequence of requests is the old balance plus the effects of that user's new rows, and stays non-negative |
| Journal.UserEventNotBettable | server/api/events/index.post.ts:45-46 | a bet on an event a user just created is refused with 400 as not active, whichever outcome it names, because it waits for approval |
| Journal.CustomEventBettable | server/api/admin/events/create-custom.post.ts:32-44 | a bet on one of the outcomes of an event an administrator just created is accepted exactly when the bettor exists and covers the stake |
| AdminGuard.FirstMatch | server/middleware/02.admin.ts:100-105 | the permission list of the first table entry whose prefix starts the URL, or none when no prefix matches |
| AdminGuard.RequiredPermissions | server/middleware/02.admin.ts:100-108 | never empty: the first matching prefix's list, else `[system_admin]` |
| AdminGuard.AnyGranted | server/middleware/02.admin.ts:69-72 | true exactly when some required permission, or `system_admin`, is exactly `true` in the user's permissions |
| AdminGuard.Guard | server/middleware/02.admin.ts:24-96 | non-admin URLs always pass; otherwise 401 without a user, 403 for a non-admin, 403 for an inactive admin, in that order; an active admin passes if and only if a required permission or `system_admin` is granted |
| AdminGuard.SystemAdminPassesEverywhere | server/middleware/02.admin.ts:69-72 | an active admin holding `system_admin` passes on every URL |
| AdminGuard.NoPrefixMatches | server/middleware/02.admin.ts:14-22 | an admin URL with no slash after its section matches no prefix of the table |
| AdminGuard.PrefixesApart | server/middleware/02.admin.ts:14-22 | no two prefixes of the table can start the same URL, so the first match is the only match |
| AdminGuard.IndexRoutesNeedSystemAdmin | server/middleware/02.admin.ts:14-22 | `/api/admin/users`, `/api/admin/tags` and `/api/admin/templates` without a trailing slash need `system_admin` |
| AdminGuard.SectionRouteNeedsSectionPermission | server/middleware/02.admin.ts:14-22 | every URL under a section prefix of the table needs exactly that section's permissions |
| AdminGuard.WithdrawalRouteNeedsFinancePermission | server/middleware/02.admin.ts:17-18 | every URL under `/api/admin/withdrawals/` needs `financial_management` |
| Preferences.DefaultPrefs | server/models/UserPreference.ts:22-76 | a created row holds no favourite topics, language en, currency USDT, theme AUTO and every notification flag on |
| Preferences.Merge | server/api/profile/preferences.ts:25-36 | a PUT keeps the row's owner; a defined flag or topic list (an explicit `null` included) replaces the stored one and an undefined one keeps it; a non-empty language, currency or theme replaces the stored one and an undefined or empty one keeps it |
| Preferences.MergeEmpty | server/api/profile/preferences.ts:25-36 | a PUT with an empty body changes no field |
| Preferences.MergeIdempotent | server/api/profile/preferences.ts:25-36 | sending the same PUT body twice is the same as sending it once |
| Preferences.MergeThen | server/api/profile/preferences.ts:25-36 | two PUTs in a row equal one PUT of the combined body |
| Preferences.FindOrCreate | server/api/profile/preferences.ts:12-23 | returns the caller's row, inserting the default row only when none exists |
| Preferences.HandlePreferences | server/api/profile/preferences.ts:4-42 | 401 first, then 405 for a method other than GET or PUT; GET always succeeds; a PUT succeeds exactly when the merged row is storable, otherwise it answers 500 and keeps the default row it created; no other user's row changes; GET answers the current or default row, PUT the merged row |
| Preferences.HandleKeepsStoreValid | server/models/UserPreference.ts:25-39 | every request keeps each stored row under its own user id, with language and currency within 255 characters and theme one of LIGHT, DARK, AUTO |
| Preferences.PutFailsOnlyOnBadValue | server/api/profile/preferences.ts:19-36 | on a valid store a GET always succeeds, and a PUT fails exactly when it names a theme outside the enumeration or a language or currency over 255 characters |
| Preferences.EmptyPutIsGet | server/api/profile/preferences.ts:10-38 | on a valid store, a PUT with an empty body stores and answers what a GET would |
| Text.TrimStart | server/api/admin/tags/index.post.ts:11-16 | a suffix of the input with no leading whitespace, losing only whitespace |
| Text.TrimEnd | server/api/admin/tags/index.post.ts:11-16 | a prefix of the input with no trailing whitespace, losing only whitespace |
| Text.Trim | server/api/admin/tags/index.post.ts:11-16 | at most as long as the input, with no whitespace at either end; empty exactly when the input is all whitespace |
| Text.TrimSlice | server/api/admin/tags/index.post.ts:11-16 | the trimmed string is a contiguous slice of the input, with only whitespace cut on each side |
| Text.TrimIdempotent | server/api/admin/tags/index.post.ts:56-60 | trimming a trimmed name changes nothing |
| Text.JsLength | server/api/admin/tags/index.post.ts:18-30 | the UTF-16 length lies between the number of characters and twice that, equals it for text in the Basic Multilingual Plane, and is 2 for one character outside it, 1 for any other |
| Text.JsLengthAppend | server/api/reports/index.post.ts:48-53 | the UTF-16 length of a concatenation is the sum of the lengths, which with the one-character values fixes the length of every string |
| Tags.CheckName | server/api/admin/tags/index.post.ts:11-30 | a name passes exactly when it is a string whose trimmed form is 2 to 50 UTF-16 units long, and then yields that trimmed form; every refusal is a 400 |
| Tags.StoredDescription | server/api/admin/tags/index.post.ts:56-60 | the stored description is the trimmed text, or null when that is empty or none was given |
| Tags.CreateTag | server/api/admin/tags/index.post.ts:5-92 | 400 for a missing, non-string or blank name or one outside 2..50 units; 409 for a trimmed name already taken; 400 for an unknown parent; 500 for a description that is neither a string nor absent or null, on which `trim` throws; success exactly otherwise, storing the trimmed name with the next id |
| Tags.CreateTagKeepsTableValid | server/api/admin/tags/index.post.ts:33-60 | creation keeps tag names unique and trimmed and ids below the counter |
| Tags.CreateTagTwiceConflicts | server/api/admin/tags/index.post.ts:33-42 | creating the same name again gives 409 |
| Reports.ParseEntityType | server/api/reports/index.post.ts:32-38 | exactly `EVENT` and `COMMENT` name an entity type |
| Reports.CreateReport | server/api/reports/index.post.ts:7-97 | 401; 400 for a missing field, an unknown type or a blank or overlong reason; 404 exactly when the body is valid and the entity is missing; 400 while the reporter has an open report on the entity; on success the trimmed reason is stored as PENDING |
| Reports.CreateReportKeepsOneOpen | server/api/reports/index.post.ts:74-88 | no reporter ever holds two open reports on the same entity |
| Reports.ClosedReportAllowsNewOne | server/api/reports/index.post.ts:74-88 | once the earlier report is dismissed, the same report is accepted again |
| Reports.SecondReportRefused | server/api/reports/index.post.ts:74-88 | the same report a second time, while the first is pending, is refused with 400 |
| Templates.CreateTemplate | server/api/admin/templates/index.post.ts:17-77 | 400 for a missing name, structure or creator type, and for an invalid structure; then 500 for a name over 255 characters or a creator type outside ADMIN, USER, BOTH; then 409 exactly when the name is taken; on success an active template with the next id |
| Templates.IsValidTemplateStructure | server/api/admin/templates/index.post.ts:7-15 | a falsy or non-object structure is refused; an accepted one is an object whose templateType is BINARY, COMPETITIVE or HEAD_TO_HEAD, whose titleStructure is a non-empty string and whose inputs is a non-empty array |
| Templates.CreateTemplateKeepsTableValid | server/api/admin/templates/index.post.ts:43-72 | template names stay unique and within 255 characters, creator types stay in their enumeration, and every stored structure is valid |
| Notifications.ParseKind | server/api/admin/notifications/index.post.ts:47-53 | a type is accepted exactly when it is one of the eight names, and maps back to its own name |
| Notifications.ParsePriority | server/api/admin/notifications/index.post.ts:29-62 | an absent priority is MEDIUM; a present one is accepted exactly when it names one of the four priorities |
| Notifications.ParseAudience | server/api/admin/notifications/index.post.ts:30-71 | an absent target mode is ALL; a present one is accepted exactly when it is ALL, SPECIFIC or GROUP |
| Notifications.ParseGroup | server/api/admin/notifications/index.post.ts:102-128 | exactly NEW, ACTIVE and PREMIUM name a group |
| Notifications.Select | server/api/admin/notifications/index.post.ts:76-134 | the ids selected are exactly those of the ACTIVE users meeting the group's condition, in table order and once per row: the k-th id is that of the user at the k-th selected position |
| Notifications.Recipients | server/api/admin/notifications/index.post.ts:73-142 | SPECIFIC yields exactly the given ids and fails without them; GROUP fails with 400 for a falsy or unknown group; ALL and GROUP yield the selection `Select` states, in table order; an empty result is refused with 400 |
| Notifications.Known | server/models/Notification.ts:16-22 | the user id the foreign key refers to exists |
| Notifications.DeliveriesSound | server/api/admin/notifications/index.post.ts:145-160 | every written notification belongs to an existing target, copies the request and is unread and unarchived |
| Notifications.DeliveriesComplete | server/api/admin/notifications/index.post.ts:145-160 | when every target exists and the title and action URL fit their columns, each target gets exactly one notification, duplicates included |
| Notifications.FanOut | server/api/admin/notifications/index.post.ts:145-160 | the inserts leave exactly the rows of the existing targets; the fan-out fails exactly when some target does not exist or the title or action URL is over 255 characters |
| Notifications.Notify | server/api/admin/notifications/index.post.ts:8-191 | 401, then 403 for a non-admin, then 400 for missing or invalid fields, each leaving the table as it was; success exactly when the title and action URL fit their 255-character columns and every recipient exists; once recipients are chosen, every failure is a 500; after the fan-out the table holds the new rows even when the answer is 500 |
| Notifications.SuccessDeliversToEveryRecipient | server/api/admin/notifications/index.post.ts:145-160 | a successful request writes one notification per recipient, unread and unarchived |
| Notifications.PartialFanOutPersists | server/api/admin/notifications/index.post.ts:145-160 | targeting an existing and a missing user keeps the existing user's notification although the request fails |
| Notifications.OverlongPayloadWritesNothing | server/api/admin/notifications/index.post.ts:145-160 | a title or action URL over 255 characters fails every insert, so no notification is written |
| Pagination.OrDefault | server/api/admin/reports/index.get.ts:27-28 | an unparsable or zero page or limit falls back to the default; any other number is kept |
| Pagination.UpperChar | server/api/admin/reports/index.get.ts:79-84 | ASCII lower-case letters are upper-cased; other characters, bar the long s, are kept |
| Pagination.ParseSortOrder | server/api/admin/reports/index.get.ts:79-84 | the sort order is ASC or DESC exactly when the upper-cased parameter reads so |
| Pagination.CheckQuery | server/api/admin/reports/index.get.ts:37-84 | the query passes exactly when page ≥ 1, limit is in 1..100, and status, entity type, sort field and sort order are allowed; every refusal is a 400 |
| Pagination.ContainsFolded | server/api/admin/reports/index.get.ts:104-108 | a search matches exactly when the reason contains it, ignoring ASCII case |
| Pagination.Filter | server/api/admin/reports/index.get.ts:90-108 | the rows kept are exactly the rows matching every given filter |
| Pagination.FilterKeepsOrder | server/api/admin/reports/index.get.ts:90-128 | the filtered rows keep table order and multiplicity: the k-th is the row at the k-th matching position, and each matching row occurs as often as in the table, none other at all |
| Seqs.KeepIsPositions | server/api/admin/reports/index.get.ts:90-108 | a selection lists the elements at the satisfying positions, ascending, so it keeps table order and repetitions |
| Seqs.KeepCounts | server/api/admin/reports/index.get.ts:90-108 | a selection keeps every satisfying element as often as it occurs and drops every other |
| Seqs.ProjectKeep | server/api/admin/notifications/index.post.ts:76-134 | the ids of a selection are, in order, the ids at the satisfying positions, and an id occurs exactly when some selected row has it |
| Pagination.Window | server/api/admin/reports/index.get.ts:127-128 | `limit` rows from `offset`, fewer at the end, none past it |
| Pagination.CeilDiv | server/api/admin/reports/index.get.ts:132 | the least page count whose pages hold every row |
| Pagination.Paginate | server/api/admin/reports/index.get.ts:132-200 | totalPages is ⌈count / limit⌉; there is a next page exactly when rows lie beyond this page, and a previous page exactly when page > 1; nextPage and prevPage are page ± 1 exactly then, else null |
| Pagination.List | server/api/admin/reports/index.get.ts:87-134 | the listed reports are the matching rows from offset (page − 1) · limit on, at most `limit`, none when the offset passes the end |
| Pagination.ListReports | server/api/admin/reports/index.get.ts:10-134 | 401 without a user, 403 for a non-admin, 400 for an invalid query, success otherwise; the result is the requested page of the filtered rows |
| Pagination.ReviewedFilterRefused | server/api/admin/reports/index.get.ts:52-58 | a REVIEWED status filter is refused, although reports can hold that status |
| Pagination.EmptyQueryDefaults | server/api/admin/reports/index.get.ts:27-34 | an empty query lists page 1 of 20 rows by createdAt, descending |
| Pagination.PagesUpToPrefix | server/api/admin/reports/index.get.ts:87 | pages 1 to n together are the first n · limit rows |
| Pagination.PagesCoverAll | server/api/admin/reports/index.get.ts:127-132 | pages 1 to totalPages list every matching row exactly once, in order |
| Pagination.PageNonEmptyIff | server/api/admin/reports/index.get.ts:132-133 | a page has rows exactly when its number is at most totalPages; hasNextPage holds exactly when the next page has rows |

## Left out

- Settlement, commission payout, referral attribution, deposit and withdrawal approval or rejection, and bet cancellation. No handler of the core implements them, so nothing here changes a bet's or transaction's status after creation.
- Row locks, concurrency and the commit/rollback machinery. Atomicity is modelled as "full update, or the input state on error". Requests are applied one at a time.
- Id sequences advance only on a committed insert. In PostgreSQL a rolled-back insert still consumes its sequence value, so real ids can have gaps that the model does not show.
- Amounts arrive as strings and go through `BigInt`. The model takes them as integers; a malformed string reaches the generic 500 handler and is not modelled.
- Wallet.PlaceBet: ids are modelled as the numbers they denote. A present id string that is not numeric makes `findByPk` throw, and the handler answers 500; the model has no such input. A falsy id (absent, null, 0, "") is `None` and gets 400; a truthy one such as the string "0" finds no row: 400 for the event, the foreign-key 500 for the outcome.
- Reports.CreateReport: ids are modelled as numbers; a non-numeric `entityId` string makes the lookup throw (500), which the model has no input for.
- Tags.CreateTag: ids are modelled as numbers; a non-numeric `parentId` string makes the lookup throw (500), which the model has no input for.
- Notifications.Notify: `userIds` is modelled as a sequence of numbers. A present non-array value passes the `userIds.length === 0` test (server/api/admin/notifications/index.post.ts:84) and `.map` then throws (:146), answering 500; a non-numeric entry fails its insert (500). Neither input exists in the model.
- Wallet.PlaceBet: `amount` is the value `BigInt` parses. A numeric 0 fails the handler's `!amount` test and is refused as a missing field; the model refuses it as non-positive. Both answers are 400. Wallet.Deposit and Wallet.Withdraw do the same.
- A `STRING` column is VARCHAR(255), and PostgreSQL counts characters. The model counts Dafny characters, which are Unicode scalar values; JavaScript strings holding lone surrogates are outside the model.
- The three wallet handlers answer 500 for a user row whose balance is null. This is not modelled, because `users.balance` is non-null.
- The wallet-history interface file lacks COMMISSION; the model follows the enum of the ORM model.
- EventCreation.CreateCustomEvent: the handler passes `isCustom: true`, but the Event model has no such column, so the value is not stored and the model has no such field.
- EventCreation.CreateCustomEvent: its outcomes are inserted concurrently, so their ids may be assigned in any order; the model assigns them in title order.
- EventCreation.CreateEvent: its outcomes are inserted concurrently too, so their ids may be assigned in any order; the model assigns them in title order.
- EventCreation.CreateEvent: a deadline is modelled as its JavaScript truthiness and the instant it denotes, or none when it is not a valid date; how a date string is parsed into an instant is not modelled. CreateCustomEvent uses the same abstraction.
- Templates.CreateTemplate: the explicit call of the admin guard at the top of the handler is modelled by AdminGuard.Guard and not repeated.
- Preferences.Merge: flags are modelled as booleans and text fields as strings, so a non-boolean flag or a non-string language, currency or theme in the body is outside the model.
- Notifications.Notify: `title` and `message` are modelled as strings (empty for every falsy value); non-string values are outside the model. `relatedEntity` and the parsing of `expiresAt` into a date are not modelled.
- Notifications.Notify: the inserts run concurrently, so the ids of the new rows may be assigned in any order; the model gives the k-th target the k-th id. An insert that fails is modelled as consuming its id.
- Notifications.Select: the NEW group's cut-off is `now` minus seven 24-hour days in milliseconds; the effect of daylight-saving changes on `setDate` is not modelled. The ACTIVE group is every active user: the 30-day cut-off the handler computes is never used.
- Pagination.OrDefault: `parseInt`'s reading of a numeric prefix is not modelled; the query carries the number it yields, or none for NaN. Repeated query parameters (which arrive as arrays) are not modelled.
- Pagination.ContainsFolded: `ILIKE` folds case by the database collation; the model folds ASCII only and treats `%` and `_` in the search text literally.
- Pagination.ListReports: the sort is done by the database; the model takes the table already in the requested order. The per-report lookups of the reported entity, reporter and resolver are not modelled.
- Cascade deletes of the ORM associations are not modelled: no handler of the core deletes rows.
- Log output and localized error messages; only status codes and error kinds are kept.
- The other listing handlers repeat the pagination arithmetic modelled here from the admin report listing.

=== FILE: admin_guard.dfy ===
/** The admin access guard (`server/middleware/02.admin.ts`): which URLs
    it protects, the order of its checks, and the prefix-to-permission table
    that decides which permission a URL needs. */
module AdminGuard {
  import opened Wrappers
  import opened Http
  import opened Entities

  const AdminPrefix := "/api/admin/"
  const SystemAdmin := "system_admin"

  /** The prefix table, in declaration order. */
  const PathPermissions: seq<(string, seq<string>)> := [
    ("/api/admin/users/", ["user_management"]),
    ("/api/admin/events/", ["event_management"]),
    ("/api/admin/deposits/", ["financial_management"]),
    ("/api/admin/withdrawals/", ["financial_management"]),
    ("/api/admin/templates/", ["template_management"]),
    ("/api/admin/tags/", ["tag_management"]),
    ("/api/admin/test/", [SystemAdmin])
  ]

  /** The permissions of the first entry of `table` whose prefix starts
      `url`, or `None` when no entry matches. */
  function FirstMatch(url: string, table: seq<(string, seq<string>)>): (r: Option<seq<string>>)
    ensures r.None? <==> forall i :: 0 <= i < |table| ==> !(table[i].0 <= url)
    ensures r.Some? ==> exists i :: 0 <= i < |table| && table[i].0 <= url && r.value == table[i].1 &&
                                    forall j :: 0 <= j < i ==> !(table[j].0 <= url)
    decreases |table|
  {
    if |table| == 0 then None
    else if table[0].0 <= url then Some(table[0].1)
    else
      var r := FirstMatch(url, table[1..]);
      if r.Some? then
        ghost var i :| 0 <= i < |table| - 1 && table[1..][i].0 <= url && r.value == table[1..][i].1 &&
                       forall j :: 0 <= j < i ==> !(table[1..][j].0 <= url);
        assert forall j :: 0 <= j < i + 1 ==> !(table[j].0 <= url) by {
          forall j | 0 <= j < i + 1 ensures !(table[j].0 <= url) {
            if j > 0 { assert table[j] == table[1..][j - 1]; }
          }
        }
        r
      else
        assert forall i :: 0 <= i < |table| ==> !(table[i].0 <= url) by {
          forall i | 0 <= i < |table| ensures !(table[i].0 <= url) {
            if i > 0 { assert table[i] == table[1..][i - 1]; }
          }
        }
        r
  }

  /** `getRequiredPermissions`: the list of the first matching prefix, else
      `[system_admin]`. Never empty. */
  function RequiredPermissions(url: string): (r: seq<string>)
    ensures |r| > 0
    ensures (forall i :: 0 <= i < |PathPermissions| ==> !(PathPermissions[i].0 <= url)) ==> r == [SystemAdmin]
    ensures forall i :: (0 <= i < |PathPermissions| && PathPermissions[i].0 <= url &&
                         (forall j :: 0 <= j < i ==> !(PathPermissions[j].0 <= url))) ==> r == PathPermissions[i].1
  {
    match FirstMatch(url, PathPermissions)
    case Some(ps) => ps
    case None => [SystemAdmin]
  }

  /** `userPermissions[p] === true`. */
  predicate Granted(perms: map<string, PermValue>, p: string) {
    p in perms && perms[p] == PermBool(true)
  }

  /** The `some(...)` of the guard, element by element. */
  function AnyGranted(perms: map<string, PermValue>, required: seq<string>): (b: bool)
    ensures b <==> exists i :: 0 <= i < |required| && (Granted(perms, required[i]) || Granted(perms, SystemAdmin))
    decreases |required|
  {
    if |required| == 0 then false
    else Granted(perms, required[0]) || Granted(perms, SystemAdmin) || AnyGranted(perms, required[1..])
  }

  /** The guard's decision for a request to `url` by the signed-in user, if any. */
  function Guard(url: string, user: Option<User>): (r: Check<HttpError>)
    ensures !(AdminPrefix <= url) ==> r.Pass?
    ensures AdminPrefix <= url && user.None? ==> r == Fail(HttpError(401, Unauthenticated))
    ensures AdminPrefix <= url && user.Some? && user.value.role != RoleAdmin ==> r == Fail(HttpError(403, NotAdmin))
    ensures AdminPrefix <= url && user.Some? && user.value.role == RoleAdmin && user.value.status != UserActive ==>
              r == Fail(HttpError(403, AccountInactive))
    ensures AdminPrefix <= url && user.Some? && user.value.role == RoleAdmin && user.value.status == UserActive ==>
              var perms := user.value.permissions.GetOr(map[]);
              (r.Pass? <==> Granted(perms, SystemAdmin) ||
                            exists i :: 0 <= i < |RequiredPermissions(url)| && Granted(perms, RequiredPermissions(url)[i]))
    ensures r.Fail? ==> r.error.status in {401, 403}
  {
    if !(AdminPrefix <= url) then Pass
    else if user.None? then Fail(HttpError(401, Unauthenticated))
    else if user.value.role != RoleAdmin then Fail(HttpError(403, NotAdmin))
    else if user.value.status != UserActive then Fail(HttpError(403, AccountInactive))
    else
      var required := RequiredPermissions(url);
      if |required| > 0 then
        if AnyGranted(user.value.permissions.GetOr(map[]), required) then Pass
        else Fail(HttpError(403, MissingPermission))
      else Pass
  }

  /** An active administrator holding `system_admin` passes the guard on every URL. */
  lemma SystemAdminPassesEverywhere(url: string, user: User)
    requires user.role == RoleAdmin && user.status == UserActive
    requires user.permissions.Some? && Granted(user.permissions.value, SystemAdmin)
    ensures Guard(url, Some(user)).Pass?
  {
  }

  /** The admin URLs without a trailing slash miss every prefix of the
      table, so creating a tag or a template and listing users need
      `system_admin` rather than the section's own permission. */
  lemma IndexRoutesNeedSystemAdmin()
    ensures RequiredPermissions("/api/admin/users") == [SystemAdmin]
    ensures RequiredPermissions("/api/admin/tags") == [SystemAdmin]
    ensures RequiredPermissions("/api/admin/templates") == [SystemAdmin]
  {
    NoPrefixMatches("/api/admin/users");
    NoPrefixMatches("/api/admin/tags");
    NoPrefixMatches("/api/admin/templates");
  }

  /** Every prefix of the table ends in a slash after `/api/admin/x`, so a
      URL of the form `/api/admin/<section>` with no further slash matches none. */
  lemma NoPrefixMatches(url: string)
    requires AdminPrefix <= url && |url| > |AdminPrefix|
    requires forall k :: |AdminPrefix| <= k < |url| ==> url[k] != '/'
    ensures forall i :: 0 <= i < |PathPermissions| ==> !(PathPermissions[i].0 <= url)
  {
    forall i | 0 <= i < |PathPermissions| ensures !(PathPermissions[i].0 <= url) {
      var p := PathPermissions[i].0;
      assert p[|p| - 1] == '/' && |p| - 1 >= |AdminPrefix|;
    }
  }

  /** No two prefixes of the table can both start one URL: the letters at
      positions 11 and 13, just after `/api/admin/`, tell every pair apart. */
  lemma PrefixesApart(i: nat, j: nat)
    requires i < |PathPermissions| && j < |PathPermissions| && i != j
    ensures |PathPermissions[i].0| > 13 && |PathPermissions[j].0| > 13
    ensures PathPermissions[i].0[11] != PathPermissions[j].0[11] || PathPermissions[i].0[13] != PathPermissions[j].0[13]
  {
  }

  /** A URL under a section prefix needs exactly that section's
      permissions: no earlier entry of the table can match it as well. */
  lemma SectionRouteNeedsSectionPermission(url: string, i: nat)
    requires i < |PathPermissions| && PathPermissions[i].0 <= url
    ensures RequiredPermissions(url) == PathPermissions[i].1
  {
    forall j | 0 <= j < i ensures !(PathPermissions[j].0 <= url) {
      PrefixesApart(i, j);
    }
  }

  /** Every withdrawal route needs `financial_management`. */
  lemma WithdrawalRouteNeedsFinancePermission(url: string)
    requires "/api/admin/withdrawals/" <= url
    ensures RequiredPermissions(url) == ["financial_management"]
  {
    assert PathPermissions[3].0 == "/api/admin/withdrawals/";
    SectionRouteNeedsSectionPermission(url, 3);
  }
}

=== FILE: entities.dfy ===
/** The rows of the ORM models the ledger works on (users, events, outcomes,
    bets, deposit/withdrawal transactions and the wallet journal), with the
    column defaults the models declare, and the database they live in. */
module Entities {
  import opened Wrappers
  import opened Http

  type UserId = nat
  type EventId = nat
  type OutcomeId = nat
  type BetId = nat
  type TxnId = nat
  type RowId = nat

  /** `users.role`, default USER. */
  datatype Role = RoleUser | RoleAdmin

  /** `users.status`, default ACTIVE. */
  datatype UserStatus = UserActive | Suspended | Banned

  /** A value of the JSON `permissions` column: only a literal `true` grants. */
  datatype PermValue = PermBool(b: bool) | PermOther

  /** A row of `users`. `balance` is a non-null BIGINT; `referralCode` is
      optional but unique; `walletAddress` is required and unique. Times are
      milliseconds since the epoch. */
  datatype User = User(
    id: UserId,
    walletAddress: string,
    username: Option<string>,
    balance: int,
    role: Role,
    referralCode: Option<string>,
    permissions: Option<map<string, PermValue>>,
    status: UserStatus,
    createdAt: int)

  /** A freshly inserted user: every column the insert leaves out takes its default. */
  function NewUser(id: UserId, walletAddress: string, createdAt: int): (u: User)
    ensures u.balance == 0 && u.role == RoleUser && u.status == UserActive
    ensures u.referralCode.None? && u.permissions.None?
  {
    User(id, walletAddress, None, 0, RoleUser, None, None, UserActive, createdAt)
  }

  /** The uniqueness constraints of `users`: the key is the row id, wallet
      addresses are unique, and referral codes are unique when present. */
  ghost predicate UsersTableValid(users: map<UserId, User>) {
    && (forall u | u in users :: users[u].id == u)
    && (forall u, v | u in users && v in users && u != v ::
          users[u].walletAddress != users[v].walletAddress)
    && (forall u, v | u in users && v in users && u != v && users[u].referralCode.Some? ::
          users[u].referralCode != users[v].referralCode)
  }

  /** `events.status`, default PENDING_APPROVAL. */
  datatype EventStatus = Draft | PendingApproval | EventActive | Rejected | Closed | Resolved | EventCancelled

  /** A row of `events`. `creatorId` and `bettingDeadline` are required,
      `winningOutcomeId` is nullable, `isFeatured` defaults to false. The
      model has no `isCustom` column. */
  datatype Event = Event(
    id: EventId,
    creatorId: UserId,
    title: string,
    description: string,
    status: EventStatus,
    bettingDeadline: int,
    resolutionSource: Option<string>,
    winningOutcomeId: Option<OutcomeId>,
    isFeatured: bool,
    adminNote: Option<string>)

  /** A row of `outcomes`; the running totals default to zero and `isWinner` to false. */
  datatype Outcome = Outcome(
    id: OutcomeId,
    eventId: EventId,
    title: string,
    totalAmount: int,
    totalBets: int,
    isWinner: bool)

  /** An outcome inserted with only its event and title: every other column takes its default. */
  function NewOutcome(id: OutcomeId, eventId: EventId, title: string): (o: Outcome)
    ensures o.totalAmount == 0 && o.totalBets == 0 && !o.isWinner
    ensures o.eventId == eventId && o.title == title
  {
    Outcome(id, eventId, title, 0, 0, false)
  }

  /** `bets.status`, default PENDING. */
  datatype BetStatus = BetPending | Won | Lost | BetCancelled

  /** A row of `bets`: one user, one event, one outcome, all non-null. */
  datatype Bet = Bet(
    id: BetId,
    userId: UserId,
    eventId: EventId,
    outcomeId: OutcomeId,
    amount: int,
    status: BetStatus)

  /** `transactions.type`. */
  datatype TxnKind = DepositTxn | WithdrawalTxn

  /** `transactions.status`, default PENDING. */
  datatype TxnStatus = TxnPending | Confirmed | TxnRejected | Failed

  /** A row of `transactions`: a deposit or withdrawal request. `txHash` is
      optional, `walletAddress` required. */
  datatype Transaction = Transaction(
    id: TxnId,
    userId: UserId,
    kind: TxnKind,
    amount: int,
    status: TxnStatus,
    txHash: Option<string>,
    walletAddress: string)

  /** `wallet_histories.type`. */
  datatype EntryKind = DepositEntry | WithdrawalEntry | BetEntry | WinEntry | RefundEntry | CommissionEntry

  /** A row of `wallet_histories`: a signed amount with the balance before
      and after, and the id of the bet or transaction that caused it. The
      table has no status column. */
  datatype HistoryRow = HistoryRow(
    id: RowId,
    userId: UserId,
    kind: EntryKind,
    amount: int,
    balanceBefore: int,
    balanceAfter: int,
    referenceId: Option<nat>)

  /** A journal row whose before/after delta is its signed amount. */
  predicate Balanced(row: HistoryRow) {
    row.balanceAfter - row.balanceBefore == row.amount
  }

  /** The next value of each table's id sequence. */
  datatype Counters = Counters(event: Serial, outcome: Serial, bet: Serial, txn: Serial, row: Serial)

  /** Some row of `outcomes` has this id: the foreign key `bets.outcome_id`. */
  predicate OutcomeExists(outcomes: seq<Outcome>, id: OutcomeId) {
    exists k | 0 <= k < |outcomes| :: outcomes[k].id == id
  }

  /** The tables the wallet handlers and the event-creation handlers read and write. */
  datatype Db = Db(
    users: map<UserId, User>,
    events: map<EventId, Event>,
    outcomes: seq<Outcome>,
    bets: seq<Bet>,
    txns: seq<Transaction>,
    history: seq<HistoryRow>,
    next: Counters)
}

=== FILE: event_creation.dfy ===
/** Event creation: the user handler (`POST /api/events`), whose events wait
    for approval, and the admin handler (`POST /api/admin/events/create-custom`),
    whose events are open for betting at once. Both insert the event and its
    outcomes in one transaction. */
module EventCreation {
  import opened Wrappers
  import opened Http
  import opened Entities

  /** The outcome rows inserted for `titles`, numbered from `firstId`. */
  function OutcomeRows(firstId: OutcomeId, eventId: EventId, titles: seq<string>): (os: seq<Outcome>)
    ensures |os| == |titles|
    ensures forall i :: 0 <= i < |titles| ==>
              os[i].id == firstId + i && os[i].eventId == eventId && os[i].title == titles[i]
    ensures forall i :: 0 <= i < |titles| ==> os[i].totalAmount == 0 && os[i].totalBets == 0 && !os[i].isWinner
    decreases |titles|
  {
    if |titles| == 0 then []
    else [NewOutcome(firstId, eventId, titles[0])] + OutcomeRows(firstId + 1, eventId, titles[1..])
  }

  /** Every title fits its `STRING` column. */
  predicate TitlesFit(titles: seq<string>) {
    forall i | 0 <= i < |titles| :: FitsVarchar(titles[i])
  }

  /** A betting deadline as the request sends it: whether JavaScript reads
      the raw value as truthy (a numeric 0 or an empty string is not), and
      the instant, in milliseconds, that the value denotes as a date, or
      `None` when it is not a valid date. */
  datatype Deadline = Deadline(truthy: bool, instant: Option<int>)

  /** A deadline the `DATE` column accepts: present and a valid date. */
  predicate ValidDeadline(d: Option<Deadline>) {
    d.Some? && d.value.instant.Some?
  }

  /** The body of `POST /api/events`. Every field may be missing. */
  datatype EventBody = EventBody(
    title: Option<string>,
    description: Option<string>,
    bettingDeadline: Option<Deadline>,
    outcomes: Option<seq<string>>)

  /** Create an event awaiting approval. The handler validates nothing: a
      missing required column, a deadline that is not a valid date, a title
      too long for its column or a missing creator row fails the insert, and a missing outcome list or an outcome
      title too long for its column fails the outcome inserts, each surfacing
      as a 500 after the rollback. */
  function CreateEvent(db: Db, caller: Option<UserId>, body: EventBody): (r: Reply<Db, EventId>)
    ensures RolledBack(db, r)
    ensures caller.None? ==> r.result == Failure(HttpError(401, Unauthenticated))
    ensures caller.Some? && (body.title.None? || body.description.None? || !ValidDeadline(body.bettingDeadline) ||
                             body.outcomes.None? || caller.value !in db.users) ==>
              r.result == Failure(HttpError(500, Internal))
    ensures caller.Some? && body.title.Some? && body.description.Some? && ValidDeadline(body.bettingDeadline) &&
            body.outcomes.Some? && caller.value in db.users &&
            (!FitsVarchar(body.title.value) || !TitlesFit(body.outcomes.value)) ==>
              r.result == Failure(HttpError(500, Internal))
    ensures r.result.Success? <==>
              && caller.Some? && body.title.Some? && body.description.Some? && ValidDeadline(body.bettingDeadline)
              && body.outcomes.Some? && caller.value in db.users
              && FitsVarchar(body.title.value) && TitlesFit(body.outcomes.value)
    ensures r.result.Success? ==>
              var id, titles := db.next.event, body.outcomes.value;
              && r.result.value == id
              && r.state.events == db.events[id := Event(id, caller.value, body.title.value, body.description.value,
                                                         PendingApproval, body.bettingDeadline.value.instant.value, None, None, false, None)]
              && |r.state.outcomes| == |db.outcomes| + |titles| && r.state.outcomes[..|db.outcomes|] == db.outcomes
              && (forall i :: 0 <= i < |titles| ==>
                    var o := r.state.outcomes[|db.outcomes| + i];
                    && o.id == db.next.outcome + i && o.eventId == id && o.title == titles[i]
                    && o.totalAmount == 0 && o.totalBets == 0 && !o.isWinner)
              && r.state.next == db.next.(event := id + 1, outcome := db.next.outcome + |titles|)
              && r.state.users == db.users && r.state.bets == db.bets
              && r.state.txns == db.txns && r.state.history == db.history
  {
    if caller.None? then Refuse(db, 401, Unauthenticated)
    else if body.title.None? || body.description.None? || !ValidDeadline(body.bettingDeadline) || caller.value !in db.users then
      Refuse(db, 500, Internal)
    else if body.outcomes.None? then Refuse(db, 500, Internal)
    else if !FitsVarchar(body.title.value) || !TitlesFit(body.outcomes.value) then Refuse(db, 500, Internal)
    else
      var id := db.next.event;
      var titles := body.outcomes.value;
      var ev := Event(id, caller.value, body.title.value, body.description.value,
                      PendingApproval, body.bettingDeadline.value.instant.value, None, None, false, None);
      var db' := db.(
        events := db.events[id := ev],
        outcomes := db.outcomes + OutcomeRows(db.next.outcome, id, titles),
        next := db.next.(event := id + 1, outcome := db.next.outcome + |titles|));
      Reply(db', Success(id))
  }

  /** The body of `POST /api/admin/events/create-custom`. Outcomes are plain titles. */
  datatype CustomEventBody = CustomEventBody(
    title: Option<string>,
    description: Option<string>,
    bettingDeadline: Option<Deadline>,
    outcomes: Option<seq<string>>,
    isFeatured: Option<bool>)

  /** Create an admin event that is ACTIVE at once. A missing or empty
      title, a missing or falsy deadline or fewer than two outcomes is
      refused with 400; a missing description, a deadline that is not a
      valid date, a missing creator row or a title too long for its column
      fails an insert (500). */
  function CreateCustomEvent(db: Db, caller: Option<UserId>, body: CustomEventBody): (r: Reply<Db, EventId>)
    ensures RolledBack(db, r)
    ensures caller.None? ==> r.result == Failure(HttpError(401, Unauthenticated))
    ensures caller.Some? && (body.title.None? || body.title == Some("") ||
                             body.bettingDeadline.None? || !body.bettingDeadline.value.truthy ||
                             body.outcomes.None? || |body.outcomes.value| < 2) ==>
              r.result == Failure(HttpError(400, MissingField))
    ensures caller.Some? && body.title.Some? && body.title.value != "" &&
            body.bettingDeadline.Some? && body.bettingDeadline.value.truthy &&
            body.outcomes.Some? && |body.outcomes.value| >= 2 ==>
              (r.result.Success? <==>
                 body.description.Some? && ValidDeadline(body.bettingDeadline) && caller.value in db.users &&
                 FitsVarchar(body.title.value) && TitlesFit(body.outcomes.value))
    ensures r.result.Success? ==> caller.Some? && body.outcomes.Some? && |body.outcomes.value| >= 2
    ensures r.result.Success? ==>
              var id, titles := db.next.event, body.outcomes.value;
              && r.result.value == id
              && r.state.events == db.events[id := Event(id, caller.value, body.title.value, body.description.value,
                                                         EventActive, body.bettingDeadline.value.instant.value, None, None,
                                                         body.isFeatured == Some(true), None)]
              && |r.state.outcomes| == |db.outcomes| + |titles| && r.state.outcomes[..|db.outcomes|] == db.outcomes
              && (forall i :: 0 <= i < |titles| ==>
                    var o := r.state.outcomes[|db.outcomes| + i];
                    o.id == db.next.outcome + i && o.eventId == id && o.title == titles[i])
              && r.state.next == db.next.(event := id + 1, outcome := db.next.outcome + |titles|)
              && r.state.users == db.users && r.state.bets == db.bets
              && r.state.txns == db.txns && r.state.history == db.history
  {
    if caller.None? then Refuse(db, 401, Unauthenticated)
    else if body.title.None? || body.title.value == "" ||
            body.bettingDeadline.None? || !body.bettingDeadline.value.truthy ||
            body.outcomes.None? || |body.outcomes.value| < 2 then
      Refuse(db, 400, MissingField)
    else if body.description.None? || !ValidDeadline(body.bettingDeadline) || caller.value !in db.users then
      Refuse(db, 500, Internal)
    else if !FitsVarchar(body.title.value) || !TitlesFit(body.outcomes.value) then Refuse(db, 500, Internal)
    else
      var id := db.next.event;
      var titles := body.outcomes.value;
      var ev := Event(id, caller.value, body.title.value, body.description.value,
                      EventActive, body.bettingDeadline.value.instant.value, None, None, body.isFeatured.GetOr(false), None);
      var db' := db.(
        events := db.events[id := ev],
        outcomes := db.outcomes + OutcomeRows(db.next.outcome, id, titles),
        next := db.next.(event := id + 1, outcome := db.next.outcome + |titles|));
      Reply(db', Success(id))
  }
}

=== FILE: http.dfy ===
/** HTTP-level errors as the request handlers raise them, and the reply shape
    shared by every handler of the model. */
module Http {
  import opened Wrappers

  /** Why a request was refused. Localized messages are not modelled; the
      reason keeps the branches of the handlers apart. */
  datatype Reason =
    | Unauthenticated
    | NotAdmin
    | AccountInactive
    | MissingPermission
    | MissingField
    | InvalidField
    | NonPositiveAmount
    | BelowMinimum
    | AboveMaximum
    | EventNotActive
    | UserNotFound
    | InsufficientFunds
    | TooShort
    | TooLong
    | Duplicate
    | ParentNotFound
    | EntityNotFound
    | AlreadyReported
    | InvalidStructure
    | NoTargets
    | MethodNotAllowed
    | Internal

  /** An error raised with `createError`: its status code and its reason. */
  datatype HttpError = HttpError(status: int, reason: Reason)

  /** What a handler leaves behind: the state of the tables it owns after the
      request, and the value it answers with or the error it raises. */
  datatype Reply<S, T> = Reply(state: S, result: Result<T, HttpError>)

  /** A refused request: the tables stay exactly as they were. */
  function Refuse<S, T>(state: S, status: int, reason: Reason): (r: Reply<S, T>)
    ensures r.state == state && r.result.Failure?
    ensures r.result.error.status == status && r.result.error.reason == reason
  {
    Reply(state, Failure(HttpError(status, reason)))
  }

  /** Atomicity of a handler: whenever it fails, nothing it owns has changed. */
  predicate RolledBack<S(==), T>(before: S, r: Reply<S, T>) {
    r.result.Failure? ==> r.state == before
  }

  /** A value of an id sequence: the database numbers rows from 1, so no
      stored id is 0, which JavaScript reads as falsy. */
  type Serial = n: nat | 1 <= n witness 1

  /** The width of a `STRING` column, which the database declares as
      VARCHAR(255). */
  const VarcharMax: nat := 255

  /** A value the database stores in a `STRING` column; a longer value makes
      the insert or update fail, and every handler answers that failure with
      500. The width counts characters. */
  predicate FitsVarchar(s: string) {
    |s| <= VarcharMax
  }

  /** A request-body field as the handlers see it: absent (`undefined`), a
      string, or some other JSON value, which is falsy or truthy. */
  datatype Field = Absent | Str(s: string) | NonString(truthy: bool)

  /** JavaScript truthiness of a field: absent, the empty string and falsy
      non-strings (`null`, `0`, `false`) are falsy. */
  predicate Falsy(f: Field) {
    f.Absent? || f == Str("") || (f.NonString? && !f.truthy)
  }
}

=== FILE: journal.dfy ===
/** The wallet journal across any sequence of requests to the wallet and
    event-creation handlers: the journal and the bet and transaction tables
    only grow, each user's journal rows form an unbroken chain from the old
    balance to the new one, and the balance moves by exactly the signed
    amounts of the rows that are not pending deposits. */
module Journal {
  import opened Wrappers
  import opened Http
  import opened Entities
  import opened Wallet
  import opened EventCreation

  /** One request to a handler of the ledger core. */
  datatype Request =
    | PlaceBetRequest(caller: Option<UserId>, bet: BetRequest)
    | WithdrawRequest(caller: Option<UserId>, amount: Option<int>)
    | DepositRequest(caller: Option<UserId>, amount: Option<int>, txHash: Option<string>)
    | CreateEventRequest(caller: Option<UserId>, body: EventBody)
    | CreateCustomEventRequest(caller: Option<UserId>, custom: CustomEventBody)

  /** The database after one request, whether it succeeded or was rolled back. */
  function Handle(db: Db, req: Request): Db {
    match req
    case PlaceBetRequest(c, b) => PlaceBet(db, c, b).state
    case WithdrawRequest(c, a) => Withdraw(db, c, a).state
    case DepositRequest(c, a, h) => Deposit(db, c, a, h).state
    case CreateEventRequest(c, b) => CreateEvent(db, c, b).state
    case CreateCustomEventRequest(c, b) => CreateCustomEvent(db, c, b).state
  }

  /** The database after the requests in order. */
  function Run(db: Db, reqs: seq<Request>): Db
    decreases |reqs|
  {
    if |reqs| == 0 then db else Run(Handle(db, reqs[0]), reqs[1..])
  }

  /** How much a journal row says the balance moved: its signed amount, except
      for a deposit row, which is written while the deposit is still pending
      and moves nothing. */
  function Effect(row: HistoryRow): int {
    if row.kind == DepositEntry then 0 else row.amount
  }

  /** A row whose recorded before/after balances agree with its effect. */
  predicate Posted(row: HistoryRow) {
    row.balanceAfter - row.balanceBefore == Effect(row)
  }

  /** The rows of user `u`, in journal order. */
  function RowsOf(rows: seq<HistoryRow>, u: UserId): (r: seq<HistoryRow>)
    ensures |r| <= |rows|
    ensures forall i :: 0 <= i < |r| ==> r[i].userId == u && r[i] in rows
    decreases |rows|
  {
    if |rows| == 0 then []
    else if rows[0].userId == u then [rows[0]] + RowsOf(rows[1..], u)
    else RowsOf(rows[1..], u)
  }

  /** The total effect of a sequence of rows. */
  function SumEffect(rows: seq<HistoryRow>): int
    decreases |rows|
  {
    if |rows| == 0 then 0 else Effect(rows[0]) + SumEffect(rows[1..])
  }

  /** The rows lead from balance `from` to balance `to`, each starting where
      the previous one ended. */
  predicate Chain(rows: seq<HistoryRow>, from: int, to: int)
    decreases |rows|
  {
    if |rows| == 0 then from == to
    else rows[0].balanceBefore == from && Chain(rows[1..], rows[0].balanceAfter, to)
  }

  /** The invariant of the ledger tables. */
  ghost predicate Valid(db: Db) {
    && UsersTableValid(db.users)
    && (forall u | u in db.users :: db.users[u].balance >= 0)
    && (forall i | 0 <= i < |db.history| :: Posted(db.history[i]))
    && (forall i | 0 <= i < |db.history| :: db.history[i].id < db.next.row)
    && (forall i | 0 <= i < |db.bets| :: db.bets[i].id < db.next.bet)
    && (forall i | 0 <= i < |db.txns| :: db.txns[i].id < db.next.txn)
    && (forall e | e in db.events :: e < db.next.event)
    && BetKeysHold(db)
  }

  /** The foreign keys of `bets`: every bet names an existing user, event
      and outcome. */
  ghost predicate BetKeysHold(db: Db) {
    forall i | 0 <= i < |db.bets| ::
      db.bets[i].userId in db.users && db.bets[i].eventId in db.events && OutcomeExists(db.outcomes, db.bets[i].outcomeId)
  }

  /** Rows referenced by the bets stay referenced while the referenced
      tables only grow. */
  lemma BetKeysKept(db: Db, db': Db)
    requires BetKeysHold(db) && db.bets <= db'.bets
    requires db.users.Keys <= db'.users.Keys && db.events.Keys <= db'.events.Keys && db.outcomes <= db'.outcomes
    ensures forall i | 0 <= i < |db.bets| ::
      db'.bets[i].userId in db'.users && db'.bets[i].eventId in db'.events && OutcomeExists(db'.outcomes, db'.bets[i].outcomeId)
  {
    forall i | 0 <= i < |db.bets|
      ensures db'.bets[i].userId in db'.users && db'.bets[i].eventId in db'.events && OutcomeExists(db'.outcomes, db'.bets[i].outcomeId)
    {
      assert db'.bets[i] == db.bets[i];
      var k :| 0 <= k < |db.outcomes| && db.outcomes[k].id == db.bets[i].outcomeId;
      assert db'.outcomes[k] == db.outcomes[k];
    }
  }

  /** The part of the journal written after `db`. */
  ghost function NewRows(db: Db, db': Db): seq<HistoryRow>
    requires |db.history| <= |db'.history|
  {
    db'.history[|db.history|..]
  }

  /** What one request does to the journal: it appends at most one row; the
      balance of the row's user moves from the row's before to its after
      balance, and no other balance moves. */
  lemma StepJournal(db: Db, req: Request)
    ensures var db' := Handle(db, req);
      && db'.users.Keys == db.users.Keys
      && db.history <= db'.history && db.bets <= db'.bets && db.txns <= db'.txns
      && |db'.history| <= |db.history| + 1
      && (|db'.history| == |db.history| ==> db'.users == db.users)
      && (|db'.history| == |db.history| + 1 ==>
            var row := db'.history[|db.history|];
            && row.userId in db.users
            && row.balanceBefore == db.users[row.userId].balance
            && row.balanceAfter == db'.users[row.userId].balance
            && Posted(row)
            && forall v | v in db.users && v != row.userId :: db'.users[v] == db.users[v])
  {
  }

  /** Writing a new balance into one row keeps the uniqueness constraints of `users`. */
  lemma BalanceWriteKeepsUsersValid(before: map<UserId, User>, after: map<UserId, User>, u: UserId, nb: int)
    requires UsersTableValid(before) && BalanceWritten(before, after, u, nb)
    ensures UsersTableValid(after)
  {
    forall v | v in after ensures after[v].id == before[v].id && after[v].walletAddress == before[v].walletAddress
                               && after[v].referralCode == before[v].referralCode {
      if v == u {} else {}
    }
  }

  lemma PlaceBetValid(db: Db, c: Option<UserId>, b: BetRequest)
    requires Valid(db)
    ensures Valid(PlaceBet(db, c, b).state)
  {
    var r := PlaceBet(db, c, b);
    if r.result.Success? {
      BalanceWriteKeepsUsersValid(db.users, r.state.users, c.value, r.state.users[c.value].balance);
      assert r.state.history == db.history + [r.state.history[|db.history|]];
      BetKeysKept(db, r.state);
    }
  }

  lemma WithdrawValid(db: Db, c: Option<UserId>, a: Option<int>)
    requires Valid(db)
    ensures Valid(Withdraw(db, c, a).state)
  {
    var r := Withdraw(db, c, a);
    if r.result.Success? {
      var db' := r.state;
      BalanceWriteKeepsUsersValid(db.users, db'.users, c.value, db'.users[c.value].balance);
      forall i | 0 <= i < |db'.history| ensures Posted(db'.history[i]) && db'.history[i].id < db'.next.row {
        if i < |db.history| { assert db'.history[i] == db.history[i]; }
      }
      forall i | 0 <= i < |db'.txns| ensures db'.txns[i].id < db'.next.txn {
        if i < |db.txns| { assert db'.txns[i] == db.txns[i]; }
      }
      BetKeysKept(db, db');
    }
  }

  lemma DepositValid(db: Db, c: Option<UserId>, a: Option<int>, h: Option<string>)
    requires Valid(db)
    ensures Valid(Deposit(db, c, a, h).state)
  {
    var r := Deposit(db, c, a, h);
    if r.result.Success? {
      assert r.state.history == db.history + [r.state.history[|db.history|]];
    }
  }

  /** Every request keeps the ledger invariant. */
  lemma StepValid(db: Db, req: Request)
    requires Valid(db)
    ensures Valid(Handle(db, req))
  {
    match req
    case PlaceBetRequest(c, b) => PlaceBetValid(db, c, b);
    case WithdrawRequest(c, a) => WithdrawValid(db, c, a);
    case DepositRequest(c, a, h) => DepositValid(db, c, a, h);
    case CreateEventRequest(c, b) => BetKeysKept(db, CreateEvent(db, c, b).state);
    case CreateCustomEventRequest(c, b) => BetKeysKept(db, CreateCustomEvent(db, c, b).state);
  }

  /** The rows one request appends chain each user's balance from before to after. */
  lemma StepChain(db: Db, req: Request, u: UserId)
    requires u in db.users
    ensures var db' := Handle(db, req);
      && |db.history| <= |db'.history| && u in db'.users
      && Chain(RowsOf(NewRows(db, db'), u), db.users[u].balance, db'.users[u].balance)
  {
    var db' := Handle(db, req);
    StepJournal(db, req);
    var first := NewRows(db, db');
    if |first| == 1 {
      assert first[1..] == [];
      if first[0].userId == u {
        assert RowsOf(first, u) == [first[0]];
      } else {
        assert RowsOf(first, u) == [];
      }
    } else {
      assert first == [];
    }
  }

  lemma {:induction false} RowsOfAppend(a: seq<HistoryRow>, b: seq<HistoryRow>, u: UserId)
    ensures RowsOf(a + b, u) == RowsOf(a, u) + RowsOf(b, u)
    decreases |a|
  {
    if |a| == 0 {
      assert a + b == b;
    } else {
      assert (a + b)[1..] == a[1..] + b;
      RowsOfAppend(a[1..], b, u);
    }
  }

  lemma {:induction false} ChainAppend(a: seq<HistoryRow>, b: seq<HistoryRow>, x: int, y: int, z: int)
    requires Chain(a, x, y) && Chain(b, y, z)
    ensures Chain(a + b, x, z)
    decreases |a|
  {
    if |a| == 0 {
      assert a + b == b;
    } else {
      assert (a + b)[1..] == a[1..] + b;
      ChainAppend(a[1..], b, a[0].balanceAfter, y, z);
    }
  }

  /** The journal after any sequence of requests: the old rows, bets and
      transactions are kept; no user appears or disappears; and for every user
      the new rows chain from the old balance to the new one. */
  lemma {:induction false} RunJournal(db: Db, reqs: seq<Request>)
    requires Valid(db)
    ensures var db' := Run(db, reqs);
      && Valid(db')
      && db'.users.Keys == db.users.Keys
      && db.history <= db'.history && db.bets <= db'.bets && db.txns <= db'.txns
      && |db.history| <= |db'.history|
      && forall u | u in db.users :: Chain(RowsOf(NewRows(db, db'), u), db.users[u].balance, db'.users[u].balance)
    decreases |reqs|
  {
    var db' := Run(db, reqs);
    if |reqs| == 0 {
      assert NewRows(db, db') == [];
    } else {
      var db1 := Handle(db, reqs[0]);
      StepJournal(db, reqs[0]);
      StepValid(db, reqs[0]);
      RunJournal(db1, reqs[1..]);
      assert db' == Run(db1, reqs[1..]);
      forall u | u in db.users
        ensures Chain(RowsOf(NewRows(db, db'), u), db.users[u].balance, db'.users[u].balance)
      {
        StepChain(db, reqs[0], u);
        ChainThrough(db.history, db1.history, db'.history, u, db.users[u].balance, db1.users[u].balance, db'.users[u].balance);
      }
    }
  }

  /** Joining the chain of the rows appended first to the chain of the rows
      appended after them. */
  lemma ChainThrough(h0: seq<HistoryRow>, h1: seq<HistoryRow>, h2: seq<HistoryRow>, u: UserId, x: int, y: int, z: int)
    requires h0 <= h1 <= h2
    requires Chain(RowsOf(h1[|h0|..], u), x, y) && Chain(RowsOf(h2[|h1|..], u), y, z)
    ensures Chain(RowsOf(h2[|h0|..], u), x, z)
  {
    assert h2[|h0|..] == h1[|h0|..] + h2[|h1|..];
    RowsOfAppend(h1[|h0|..], h2[|h1|..], u);
    ChainAppend(RowsOf(h1[|h0|..], u), RowsOf(h2[|h1|..], u), x, y, z);
  }

  /** Rows that chain from `from` to `to` and are all posted move the balance
      by exactly their total effect. */
  lemma {:induction false} ChainSum(rows: seq<HistoryRow>, from: int, to: int)
    requires Chain(rows, from, to)
    requires forall i | 0 <= i < |rows| :: Posted(rows[i])
    ensures to == from + SumEffect(rows)
    decreases |rows|
  {
    if |rows| > 0 {
      assert Posted(rows[0]);
      ChainSum(rows[1..], rows[0].balanceAfter, to);
    }
  }

  /** The rows of one user in a posted journal are posted. */
  lemma PostedRows(h: seq<HistoryRow>, lo: nat, u: UserId)
    requires lo <= |h| && forall i | 0 <= i < |h| :: Posted(h[i])
    ensures forall i | 0 <= i < |RowsOf(h[lo..], u)| :: Posted(RowsOf(h[lo..], u)[i])
  {
    var rows := RowsOf(h[lo..], u);
    forall i | 0 <= i < |rows| ensures Posted(rows[i]) {
      assert rows[i] in h[lo..];
    }
  }

  /** Conservation: after any sequence of requests, each user's balance is
      the old balance plus the signed amounts of the user's new journal rows,
      pending deposits counting zero; so no balance moves without a journal
      row, and none stays still while a debit is journalled. */
  lemma Conservation(db: Db, reqs: seq<Request>, u: UserId)
    requires Valid(db) && u in db.users
    ensures var db' := Run(db, reqs);
      && u in db'.users && |db.history| <= |db'.history|
      && db'.users[u].balance == db.users[u].balance + SumEffect(RowsOf(NewRows(db, db'), u))
      && db'.users[u].balance >= 0
  {
    var db' := Run(db, reqs);
    RunJournal(db, reqs);
    var rows := RowsOf(NewRows(db, db'), u);
    PostedRows(db'.history, |db.history|, u);
    ChainSum(rows, db.users[u].balance, db'.users[u].balance);
  }

  /** An event created by a user waits for approval, so every bet on it is
      refused as not active, whichever outcome it names, until an
      administrator changes its status. */
  lemma UserEventNotBettable(db: Db, creator: Option<UserId>, body: EventBody, caller: Option<UserId>, o: OutcomeId, a: int)
    requires CreateEvent(db, creator, body).result.Success?
    requires caller.Some? && MinAmount <= a <= MaxAmount
    ensures var r := CreateEvent(db, creator, body);
      PlaceBet(r.state, caller, BetRequest(Some(r.result.value), Some(o), Some(a))).result ==
        Failure(HttpError(400, EventNotActive))
  {
  }

  /** An event created by an administrator is open at once: a bet on one of
      its outcomes (the `k`-th of the body) is accepted exactly when the
      bettor's row exists and covers the stake. */
  lemma CustomEventBettable(db: Db, creator: Option<UserId>, body: CustomEventBody, caller: UserId, k: nat, a: int)
    requires CreateCustomEvent(db, creator, body).result.Success?
    requires body.outcomes.Some? && k < |body.outcomes.value|
    requires MinAmount <= a <= MaxAmount
    ensures var r := CreateCustomEvent(db, creator, body);
      PlaceBet(r.state, Some(caller), BetRequest(Some(r.result.value), Some(db.next.outcome + k), Some(a))).result.Success? <==>
        caller in db.users && db.users[caller].balance >= a
  {
    var r := CreateCustomEvent(db, creator, body);
    var o := db.next.outcome + k;
    var req := BetRequest(Some(r.result.value), Some(o), Some(a));
    PlaceBetSucceedsIff(r.state, Some(caller), req);
    assert r.state.outcomes[|db.outcomes| + k].id == o;
    assert OutcomeExists(r.state.outcomes, o);
    assert r.state.users == db.users;
    assert r.result.value in r.state.events && r.state.events[r.result.value].status == EventActive;
  }
}

=== FILE: notifications.dfy ===
/** Admin notifications (`POST /api/admin/notifications`): body validation,
    the choice of recipients, and the fan-out that writes one notification
    per recipient without a transaction. */
module Notifications {
  import opened Wrappers
  import opened Http
  import opened Entities
  import opened Seqs

  /** `notifications.type`. */
  datatype Kind = EventResolved | LevelUp | NewTask | SystemNotice | BetWon | BetLost | CommentReply | ReportResolved

  /** `notifications.priority`. */
  datatype Priority = Low | Medium | High | Urgent

  /** The `targetUsers` modes. */
  datatype Audience = All | Specific | Group

  /** The `userGroup` values of group targeting. */
  datatype UserGroup = NewUsers | ActiveUsers | PremiumUsers

  /** Seven days in milliseconds, the window of the NEW group. */
  const NewUserWindow := 7 * 24 * 60 * 60 * 1000
  /** The balance from which a user is PREMIUM. */
  const PremiumBalance := 1_000_000

  function KindName(k: Kind): string {
    match k
    case EventResolved => "EVENT_RESOLVED"
    case LevelUp => "LEVEL_UP"
    case NewTask => "NEW_TASK"
    case SystemNotice => "SYSTEM"
    case BetWon => "BET_WON"
    case BetLost => "BET_LOST"
    case CommentReply => "COMMENT_REPLY"
    case ReportResolved => "REPORT_RESOLVED"
  }

  function PriorityName(p: Priority): string {
    match p
    case Low => "LOW"
    case Medium => "MEDIUM"
    case High => "HIGH"
    case Urgent => "URGENT"
  }

  function AudienceName(a: Audience): string {
    match a
    case All => "ALL"
    case Specific => "SPECIFIC"
    case Group => "GROUP"
  }

  function GroupName(g: UserGroup): string {
    match g
    case NewUsers => "NEW"
    case ActiveUsers => "ACTIVE"
    case PremiumUsers => "PREMIUM"
  }

  /** The type a field names: exactly the eight names of the allowed list. */
  function ParseKind(f: Field): (r: Option<Kind>)
    ensures r.Some? ==> f == Str(KindName(r.value))
    ensures r.None? ==> forall k :: f != Str(KindName(k))
  {
    match f
    case Str(s) =>
      if s == "EVENT_RESOLVED" then Some(EventResolved)
      else if s == "LEVEL_UP" then Some(LevelUp)
      else if s == "NEW_TASK" then Some(NewTask)
      else if s == "SYSTEM" then Some(SystemNotice)
      else if s == "BET_WON" then Some(BetWon)
      else if s == "BET_LOST" then Some(BetLost)
      else if s == "COMMENT_REPLY" then Some(CommentReply)
      else if s == "REPORT_RESOLVED" then Some(ReportResolved)
      else None
    case _ => None
  }

  /** The priority of the body; an absent member defaults to MEDIUM, a
      `null` one does not. */
  function ParsePriority(f: Field): (r: Option<Priority>)
    ensures f.Absent? ==> r == Some(Medium)
    ensures !f.Absent? && r.Some? ==> f == Str(PriorityName(r.value))
    ensures !f.Absent? && r.None? ==> forall p :: f != Str(PriorityName(p))
  {
    match f
    case Absent => Some(Medium)
    case Str(s) =>
      if s == "LOW" then Some(Low)
      else if s == "MEDIUM" then Some(Medium)
      else if s == "HIGH" then Some(High)
      else if s == "URGENT" then Some(Urgent)
      else None
    case NonString(_) => None
  }

  /** The audience of the body; an absent member defaults to ALL. */
  function ParseAudience(f: Field): (r: Option<Audience>)
    ensures f.Absent? ==> r == Some(All)
    ensures !f.Absent? && r.Some? ==> f == Str(AudienceName(r.value))
    ensures !f.Absent? && r.None? ==> forall a :: f != Str(AudienceName(a))
  {
    match f
    case Absent => Some(All)
    case Str(s) =>
      if s == "ALL" then Some(All)
      else if s == "SPECIFIC" then Some(Specific)
      else if s == "GROUP" then Some(Group)
      else None
    case NonString(_) => None
  }

  /** The group a field names. */
  function ParseGroup(f: Field): (r: Option<UserGroup>)
    ensures r.Some? ==> f == Str(GroupName(r.value))
    ensures r.None? ==> forall g :: f != Str(GroupName(g))
  {
    match f
    case Str(s) =>
      if s == "NEW" then Some(NewUsers)
      else if s == "ACTIVE" then Some(ActiveUsers)
      else if s == "PREMIUM" then Some(PremiumUsers)
      else None
    case _ => None
  }

  /** The request body. `title` and `message` are strings, the empty string
      standing for every falsy value; `userIds` is `None` when absent or null. */
  datatype NotifyBody = NotifyBody(
    title: string,
    message: string,
    kind: Field,
    priority: Field,
    targetUsers: Field,
    userIds: Option<seq<nat>>,
    userGroup: Field,
    actionUrl: Option<string>,
    expiresAt: Option<int>)

  /** Whether a user is selected by a group, or by ALL when `g` is `None`.
      Every selection is restricted to ACTIVE users; the ACTIVE group is
      exactly that restriction. */
  predicate Selected(u: User, g: Option<UserGroup>, now: int) {
    && u.status == UserActive
    && (g == Some(NewUsers) ==> u.createdAt >= now - NewUserWindow)
    && (g == Some(PremiumUsers) ==> u.balance >= PremiumBalance)
  }

  /** The selection as a test on one user. */
  function Picked(g: Option<UserGroup>, now: int): User -> bool {
    u => Selected(u, g, now)
  }

  /** The ids of the selected users, in table order: the k-th is the id of
      the user at the k-th selected position, so a user appears once for
      each row it has and no unselected user appears. */
  function Select(users: seq<User>, g: Option<UserGroup>, now: int): (r: seq<nat>)
    ensures |r| <= |users|
    ensures forall id :: id in r <==> exists i :: 0 <= i < |users| && users[i].id == id && Selected(users[i], g, now)
    ensures var ix := Positions(users, Picked(g, now));
      |r| == |ix| && forall k :: 0 <= k < |r| ==> r[k] == users[ix[k]].id
  {
    ProjectKeep(users, Picked(g, now), IdOf);
    Project(Keep(users, Picked(g, now)), IdOf)
  }

  /** A user's id. */
  function IdOf(u: User): nat {
    u.id
  }

  /** The recipient ids of a validated body; any error is a 400. */
  function Recipients(users: seq<User>, now: int, audience: Audience, body: NotifyBody): (r: Result<seq<nat>, HttpError>)
    ensures r.Failure? ==> r.error.status == 400
    ensures r.Success? ==> |r.value| > 0
    ensures audience == Specific ==>
              (r.Success? <==> body.userIds.Some? && |body.userIds.value| > 0) &&
              (r.Success? ==> r.value == body.userIds.value)
    ensures audience == Group && Falsy(body.userGroup) ==> r == Failure(HttpError(400, MissingField))
    ensures audience == Group && !Falsy(body.userGroup) && ParseGroup(body.userGroup).None? ==>
              r == Failure(HttpError(400, InvalidField))
    ensures audience != Specific && r.Success? ==>
              var g := if audience == All then None else ParseGroup(body.userGroup);
              && (forall id :: id in r.value <==> exists i :: 0 <= i < |users| && users[i].id == id && Selected(users[i], g, now))
              && r.value == Select(users, g, now)
  {
    var ids :=
      match audience
      case All => Success(Select(users, None, now))
      case Specific =>
        if body.userIds.None? || |body.userIds.value| == 0 then Failure(HttpError(400, MissingField))
        else Success(body.userIds.value)
      case Group =>
        if Falsy(body.userGroup) then Failure(HttpError(400, MissingField))
        else
          match ParseGroup(body.userGroup)
          case None => Failure(HttpError(400, InvalidField))
          case Some(g) => Success(Select(users, Some(g), now));
    if ids.Success? && |ids.value| == 0 then Failure(HttpError(400, NoTargets)) else ids
  }

  /** What every notification of one request shares. */
  datatype Payload = Payload(kind: Kind, title: string, message: string, priority: Priority,
                         actionUrl: Option<string>, expiresAt: Option<int>)

  /** A row of `notifications`. */
  datatype Notification = Notification(
    id: nat,
    userId: nat,
    kind: Kind,
    title: string,
    message: string,
    priority: Priority,
    actionUrl: Option<string>,
    expiresAt: Option<int>,
    isRead: bool,
    isArchived: bool)

  /** The `notifications` table and the next value of its id sequence. */
  datatype NotificationTable = NotificationTable(rows: seq<Notification>, next: Serial)

  /** A user with this id exists: the foreign key of `notifications.user_id`. */
  function Known(users: seq<User>, id: nat): (b: bool)
    ensures b <==> exists i :: 0 <= i < |users| && users[i].id == id
    decreases |users|
  {
    if |users| == 0 then false
    else if users[0].id == id then true
    else
      assert forall i :: 1 <= i < |users| ==> users[i] == users[1..][i - 1];
      Known(users[1..], id)
  }

  /** The columns every insert of one request shares fit their `STRING`
      width: the title and, when given, the action URL. */
  predicate PayloadFits(d: Payload) {
    FitsVarchar(d.title) && (d.actionUrl.None? || FitsVarchar(d.actionUrl.value))
  }

  /** The insert of `d` for user `id` succeeds: the user exists and the
      shared columns fit. */
  predicate Inserts(users: seq<User>, id: nat, d: Payload) {
    Known(users, id) && PayloadFits(d)
  }

  /** The notification an insert for `userId` writes with id `id`. */
  function Fresh(id: nat, userId: nat, d: Payload): Notification {
    Notification(id, userId, d.kind, d.title, d.message, d.priority, d.actionUrl, d.expiresAt, false, false)
  }

  /** The rows the inserts for `targets` leave behind: the k-th insert takes
      id `first + k`, and an insert for an unknown user, or of a title or
      action URL too long for its column, fails and writes nothing. */
  function Deliveries(first: Serial, users: seq<User>, targets: seq<nat>, d: Payload): seq<Notification>
    decreases |targets|
  {
    if |targets| == 0 then []
    else
      var last := targets[|targets| - 1];
      Deliveries(first, users, targets[..|targets| - 1], d) +
      (if Inserts(users, last, d) then [Fresh(first + |targets| - 1, last, d)] else [])
  }

  /** Every delivered row is an unread, unarchived copy of the draft for a
      known user among the targets. */
  lemma {:induction false} DeliveriesSound(first: Serial, users: seq<User>, targets: seq<nat>, d: Payload)
    ensures |Deliveries(first, users, targets, d)| <= |targets|
    ensures forall n :: n in Deliveries(first, users, targets, d) ==>
              && n.userId in targets && Known(users, n.userId) && PayloadFits(d)
              && first <= n.id < first + |targets|
              && n == Fresh(n.id, n.userId, d)
    decreases |targets|
  {
    if |targets| > 0 {
      var init := targets[..|targets| - 1];
      DeliveriesSound(first, users, init, d);
      assert forall t :: t in init ==> t in targets;
    }
  }

  /** When every target exists and the shared columns fit, each target gets
      exactly one row, in order, duplicates included. */
  lemma {:induction false} DeliveriesComplete(first: Serial, users: seq<User>, targets: seq<nat>, d: Payload)
    requires PayloadFits(d)
    requires forall k :: 0 <= k < |targets| ==> Known(users, targets[k])
    ensures var rows := Deliveries(first, users, targets, d);
            |rows| == |targets| && forall k :: 0 <= k < |targets| ==> rows[k] == Fresh(first + k, targets[k], d)
    decreases |targets|
  {
    if |targets| > 0 {
      var init := targets[..|targets| - 1];
      DeliveriesComplete(first, users, init, d);
    }
  }

  /** The fan-out: one insert per target, each on its own. Returns the table
      afterwards and whether some insert failed. */
  method FanOut(t: NotificationTable, users: seq<User>, targets: seq<nat>, d: Payload) returns (t': NotificationTable, failed: bool)
    ensures t' == NotificationTable(t.rows + Deliveries(t.next, users, targets, d), t.next + |targets|)
    ensures failed <==> exists k :: 0 <= k < |targets| && !Inserts(users, targets[k], d)
  {
    var rows := t.rows;
    failed := false;
    var i := 0;
    while i < |targets|
      invariant 0 <= i <= |targets|
      invariant rows == t.rows + Deliveries(t.next, users, targets[..i], d)
      invariant failed <==> exists k :: 0 <= k < i && !Inserts(users, targets[k], d)
    {
      assert targets[..i + 1][..i] == targets[..i];
      if Inserts(users, targets[i], d) {
        rows := rows + [Fresh(t.next + i, targets[i], d)];
      } else {
        failed := true;
      }
      i := i + 1;
    }
    assert targets[..i] == targets;
    t' := NotificationTable(rows, t.next + |targets|);
  }

  /** The success body: how many notifications and recipients. */
  datatype Summary = Summary(notificationCount: nat, targetUsers: nat)

  /** The draft a valid body describes. */
  function PayloadOf(body: NotifyBody, kind: Kind, priority: Priority): Payload {
    Payload(kind, body.title, body.message, priority, body.actionUrl, body.expiresAt)
  }

  /** The body passes every check before recipients are chosen. */
  predicate ValidBody(body: NotifyBody) {
    && body.title != "" && body.message != "" && !Falsy(body.kind)
    && ParseKind(body.kind).Some? && ParsePriority(body.priority).Some? && ParseAudience(body.targetUsers).Some?
  }

  /** The handler, for the users table in the order the database returns
      it and the current time `now` in milliseconds. The inserts are not
      wrapped in a transaction: when one fails the response is a 500, but
      the rows of the others stay. A title or action URL too long for its
      column fails every insert. */
  method Notify(t: NotificationTable, users: seq<User>, now: int, caller: Option<User>, body: NotifyBody)
    returns (r: Reply<NotificationTable, Summary>)
    ensures caller.None? ==> r == Reply(t, Failure(HttpError(401, Unauthenticated)))
    ensures caller.Some? && caller.value.role != RoleAdmin ==> r == Reply(t, Failure(HttpError(403, NotAdmin)))
    ensures caller.Some? && caller.value.role == RoleAdmin && (body.title == "" || body.message == "" || Falsy(body.kind)) ==>
              r == Reply(t, Failure(HttpError(400, MissingField)))
    ensures caller.Some? && caller.value.role == RoleAdmin && !ValidBody(body) ==>
              r.state == t && r.result.Failure? && r.result.error.status == 400
    ensures r.result.Failure? && r.result.error.status != 500 ==> r.state == t
    ensures r.result.Success? <==>
              && caller.Some? && caller.value.role == RoleAdmin && ValidBody(body)
              && FitsVarchar(body.title) && (body.actionUrl.None? || FitsVarchar(body.actionUrl.value))
              && (var rs := Recipients(users, now, ParseAudience(body.targetUsers).value, body);
                  rs.Success? && forall k :: 0 <= k < |rs.value| ==> Known(users, rs.value[k]))
    ensures caller.Some? && caller.value.role == RoleAdmin && ValidBody(body) ==>
              var rs := Recipients(users, now, ParseAudience(body.targetUsers).value, body);
              var d := PayloadOf(body, ParseKind(body.kind).value, ParsePriority(body.priority).value);
              && (rs.Failure? ==> r == Reply(t, Failure(rs.error)))
              && (rs.Success? ==> r.state == NotificationTable(t.rows + Deliveries(t.next, users, rs.value, d), t.next + |rs.value|))
              && (r.result.Success? ==> r.result.value == Summary(|rs.value|, |rs.value|))
              && (rs.Success? && r.result.Failure? ==> r.result.error == HttpError(500, Internal))
  {
    if caller.None? {
      return Reply(t, Failure(HttpError(401, Unauthenticated)));
    }
    if caller.value.role != RoleAdmin {
      return Reply(t, Failure(HttpError(403, NotAdmin)));
    }
    if body.title == "" || body.message == "" || Falsy(body.kind) {
      return Reply(t, Failure(HttpError(400, MissingField)));
    }
    var kind := ParseKind(body.kind);
    if kind.None? {
      return Reply(t, Failure(HttpError(400, InvalidField)));
    }
    var priority := ParsePriority(body.priority);
    if priority.None? {
      return Reply(t, Failure(HttpError(400, InvalidField)));
    }
    var audience := ParseAudience(body.targetUsers);
    if audience.None? {
      return Reply(t, Failure(HttpError(400, InvalidField)));
    }
    var rs := Recipients(users, now, audience.value, body);
    if rs.Failure? {
      return Reply(t, Failure(rs.error));
    }
    var t', failed := FanOut(t, users, rs.value, PayloadOf(body, kind.value, priority.value));
    if failed {
      return Reply(t', Failure(HttpError(500, Internal)));
    }
    return Reply(t', Success(Summary(|rs.value|, |rs.value|)));
  }

  /** A successful request writes exactly one fresh notification per
      recipient, and nothing else. */
  lemma SuccessDeliversToEveryRecipient(first: Serial, users: seq<User>, targets: seq<nat>, d: Payload)
    requires PayloadFits(d)
    requires forall k :: 0 <= k < |targets| ==> Known(users, targets[k])
    ensures |Deliveries(first, users, targets, d)| == |targets|
    ensures forall k :: 0 <= k < |targets| ==>
              var n := Deliveries(first, users, targets, d)[k];
              n.userId == targets[k] && !n.isRead && !n.isArchived && n.kind == d.kind
  {
    DeliveriesComplete(first, users, targets, d);
  }

  /** The fan-out is not atomic: targeting an existing and a missing user
      answers 500 yet keeps the existing user's notification. */
  lemma PartialFanOutPersists(first: Serial, u: User, d: Payload)
    requires u.id != 99 && PayloadFits(d)
    ensures var rows := Deliveries(first, [u], [u.id, 99], d);
            !Known([u], 99) && rows == [Fresh(first, u.id, d)]
  {
    var ts := [u.id, 99];
    assert ts[..1] == [u.id];
    assert [u.id][..0] == [];
    assert Known([u], u.id);
    assert Deliveries(first, [u], [], d) == [];
    assert Deliveries(first, [u], [u.id], d) == [Fresh(first, u.id, d)];
  }

  /** A title or action URL too long for its column fails every insert, so
      such a request writes no notification at all. */
  lemma {:induction false} OverlongPayloadWritesNothing(first: Serial, users: seq<User>, targets: seq<nat>, d: Payload)
    requires !PayloadFits(d)
    ensures Deliveries(first, users, targets, d) == []
    decreases |targets|
  {
    if |targets| > 0 {
      OverlongPayloadWritesNothing(first, users, targets[..|targets| - 1], d);
    }
  }
}

=== FILE: pagination.dfy ===
/** The admin report listing (`GET /api/admin/reports`): query defaults and
    validation, the filter the query builds, and the page arithmetic of its
    response. */
module Pagination {
  import opened Wrappers
  import opened Http
  import opened Entities
  import opened Reports
  import opened Seqs

  const DefaultPage := 1
  const DefaultLimit := 20
  const MaxLimit := 100

  /** The query string. `page` and `limit` are what `parseInt` made of the
      parameter, `None` standing for `NaN`; the others are the raw strings. */
  datatype Query = Query(
    page: Option<int>,
    limit: Option<int>,
    status: Option<string>,
    entityType: Option<string>,
    reason: Option<string>,
    search: Option<string>,
    sortBy: Option<string>,
    sortOrder: Option<string>)

  /** `parseInt(x) || d`: `NaN` and `0` fall back to `d`. */
  function OrDefault(n: Option<int>, d: int): (r: int)
    ensures n.Some? && n.value != 0 ==> r == n.value
    ensures n.None? || n.value == 0 ==> r == d
  {
    if n.Some? && n.value != 0 then n.value else d
  }

  /** A string parameter that is present and not empty. */
  predicate Given(s: Option<string>) {
    s.Some? && s.value != ""
  }

  /** `s || d` for a string parameter. */
  function StringOr(s: Option<string>, d: string): string {
    if Given(s) then s.value else d
  }

  /** The status filters the handler accepts. REVIEWED, a value of the
      column, is not among them. */
  const AllowedStatuses: seq<string> := ["PENDING", "RESOLVED", "DISMISSED"]
  const AllowedEntityTypes: seq<string> := ["EVENT", "COMMENT"]
  const AllowedSortFields: seq<string> := ["createdAt", "updatedAt", "status", "entityType", "reason"]

  /** The direction of the sort. */
  datatype SortOrder = Asc | Desc

  /** The characters `toUpperCase` maps onto a letter of `ASC` or `DESC`:
      the ASCII lower-case letters, and U+017F (long s), which upper-cases to
      `S`. Every other character is left as it is, which is exact for
      comparing the result against `ASC` and `DESC`. */
  function UpperChar(c: char): (u: char)
    ensures 'a' <= c <= 'z' ==> u as int == c as int - 32
    ensures !('a' <= c <= 'z') && c != 'ſ' ==> u == c
  {
    if 'a' <= c <= 'z' then (c as int - 32) as char
    else if c == 'ſ' then 'S'
    else c
  }

  /** `s.toUpperCase() === target`, for an upper-case ASCII `target`. */
  predicate UpperEquals(s: string, target: string) {
    |s| == |target| && forall i :: 0 <= i < |s| ==> UpperChar(s[i]) == target[i]
  }

  /** The sort order a parameter names, if it names one. */
  function ParseSortOrder(s: string): (r: Option<SortOrder>)
    ensures r == Some(Asc) <==> UpperEquals(s, "ASC")
    ensures r == Some(Desc) <==> UpperEquals(s, "DESC")
  {
    if UpperEquals(s, "ASC") then Some(Asc)
    else if UpperEquals(s, "DESC") then Some(Desc)
    else None
  }

  /** The query passes every check after the admin check. */
  predicate ValidQuery(q: Query) {
    && OrDefault(q.page, DefaultPage) >= 1
    && 1 <= OrDefault(q.limit, DefaultLimit) <= MaxLimit
    && (Given(q.status) ==> q.status.value in AllowedStatuses)
    && (Given(q.entityType) ==> q.entityType.value in AllowedEntityTypes)
    && StringOr(q.sortBy, "createdAt") in AllowedSortFields
    && ParseSortOrder(StringOr(q.sortOrder, "DESC")).Some?
  }

  /** The column value of a status. */
  function StatusName(s: ReportStatus): string {
    match s
    case ReportPending => "PENDING"
    case Reviewed => "REVIEWED"
    case ReportResolved => "RESOLVED"
    case Dismissed => "DISMISSED"
  }

  /** The column value of an entity type. */
  function EntityTypeName(e: EntityType): string {
    match e
    case EventEntity => "EVENT"
    case CommentEntity => "COMMENT"
  }

  /** ASCII lower-casing, the folding `ILIKE` applies. */
  function LowerChar(c: char): char {
    if 'A' <= c <= 'Z' then (c as int + 32) as char else c
  }

  /** `needle` starts `hay`, ignoring ASCII case. */
  predicate StartsFolded(needle: string, hay: string) {
    |needle| <= |hay| && forall i :: 0 <= i < |needle| ==> LowerChar(needle[i]) == LowerChar(hay[i])
  }

  /** `hay ILIKE '%needle%'`. */
  function ContainsFolded(hay: string, needle: string): (b: bool)
    ensures b <==> exists k :: 0 <= k <= |hay| && StartsFolded(needle, hay[k..])
    decreases |hay|
  {
    if StartsFolded(needle, hay) then
      assert hay[0..] == hay;
      true
    else if |hay| == 0 then false
    else
      var b := ContainsFolded(hay[1..], needle);
      assert forall k :: 1 <= k <= |hay| ==> hay[k..] == hay[1..][k - 1..];
      if b then
        ghost var k :| 0 <= k <= |hay| - 1 && StartsFolded(needle, hay[1..][k..]);
        assert StartsFolded(needle, hay[k + 1..]);
        b
      else
        assert hay[0..] == hay;
        b
  }

  /** The where clause: each given filter holds; a search replaces the
      exact reason filter. */
  predicate Matches(r: Report, q: Query) {
    && (Given(q.status) ==> StatusName(r.status) == q.status.value)
    && (Given(q.entityType) ==> EntityTypeName(r.entityType) == q.entityType.value)
    && (Given(q.search) ==> ContainsFolded(r.reason, q.search.value))
    && (!Given(q.search) && Given(q.reason) ==> r.reason == q.reason.value)
  }

  /** The where clause as a test on one row. */
  function Where(q: Query): Report -> bool {
    r => Matches(r, q)
  }

  /** The matching rows, in table order. */
  function Filter(rows: seq<Report>, q: Query): (r: seq<Report>)
    ensures |r| <= |rows|
    ensures forall x :: x in r <==> x in rows && Matches(x, q)
  {
    Keep(rows, Where(q))
  }

  /** The where clause keeps the table order and every repetition: the
      k-th filtered row is the row at the k-th matching position, and a
      matching row occurs as often as in the table. */
  lemma FilterKeepsOrder(rows: seq<Report>, q: Query)
    ensures var r, ix := Filter(rows, q), Positions(rows, Where(q));
      |r| == |ix| && forall k :: 0 <= k < |r| ==> r[k] == rows[ix[k]]
    ensures forall x :: multiset(Filter(rows, q))[x] == if Matches(x, q) then multiset(rows)[x] else 0
  {
    KeepIsPositions(rows, Where(q));
    KeepCounts(rows, Where(q));
  }

  /** `limit` rows from `offset` on, as `LIMIT .. OFFSET ..` returns them. */
  function Window<T>(xs: seq<T>, offset: nat, limit: nat): (r: seq<T>)
    ensures |r| == if offset >= |xs| then 0 else if offset + limit <= |xs| then limit else |xs| - offset
    ensures forall k :: 0 <= k < |r| ==> r[k] == xs[offset + k]
  {
    if offset >= |xs| then [] else if offset + limit <= |xs| then xs[offset..offset + limit] else xs[offset..]
  }

  /** `Math.ceil(count / limit)`. */
  function CeilDiv(count: nat, limit: nat): (n: nat)
    requires limit >= 1
    ensures n * limit >= count
    ensures count > 0 ==> (n - 1) * limit < count
    ensures count == 0 <==> n == 0
  {
    (count + limit - 1) / limit
  }

  /** The `pagination` block of the response. */
  datatype PageInfo = PageInfo(
    currentPage: int,
    totalPages: nat,
    totalItems: nat,
    itemsPerPage: int,
    hasNextPage: bool,
    hasPrevPage: bool,
    nextPage: Option<int>,
    prevPage: Option<int>)

  /** The pagination block for a page of a result set of `count` rows. */
  function Paginate(page: int, limit: int, count: nat): (p: PageInfo)
    requires page >= 1 && 1 <= limit
    ensures p.currentPage == page && p.itemsPerPage == limit && p.totalItems == count
    ensures p.totalPages == CeilDiv(count, limit)
    ensures p.totalPages * limit >= count && (count > 0 ==> (p.totalPages - 1) * limit < count)
    ensures p.hasNextPage <==> page * limit < count
    ensures p.hasPrevPage <==> page > 1
    ensures p.nextPage == (if p.hasNextPage then Some(page + 1) else None)
    ensures p.prevPage == (if p.hasPrevPage then Some(page - 1) else None)
  {
    var total := CeilDiv(count, limit);
    assert page < total <==> page * limit < count by {
      if page < total {
        assert page <= total - 1;
        MulMono(page, total - 1, limit);
      } else {
        MulMono(total, page, limit);
      }
    }
    var hasNext := page < total;
    var hasPrev := page > 1;
    PageInfo(page, total, count, limit, hasNext, hasPrev,
             if hasNext then Some(page + 1) else None,
             if hasPrev then Some(page - 1) else None)
  }

  lemma MulMono(a: int, b: int, c: nat)
    requires a <= b
    ensures a * c <= b * c
  {
  }

  /** The response body's `data`, less the per-report lookups. */
  datatype Listing = Listing(
    reports: seq<Report>,
    pagination: PageInfo,
    sortField: string,
    order: SortOrder)

  /** The parameter checks, in the handler's order; every refusal is a 400. */
  function CheckQuery(q: Query): (r: Check<HttpError>)
    ensures r.Pass? <==> ValidQuery(q)
    ensures r.Fail? ==> r.error.status == 400
  {
    if OrDefault(q.page, DefaultPage) < 1 then Fail(HttpError(400, InvalidField))
    else if !(1 <= OrDefault(q.limit, DefaultLimit) <= MaxLimit) then Fail(HttpError(400, InvalidField))
    else if Given(q.status) && q.status.value !in AllowedStatuses then Fail(HttpError(400, InvalidField))
    else if Given(q.entityType) && q.entityType.value !in AllowedEntityTypes then Fail(HttpError(400, InvalidField))
    else if StringOr(q.sortBy, "createdAt") !in AllowedSortFields then Fail(HttpError(400, InvalidField))
    else if ParseSortOrder(StringOr(q.sortOrder, "DESC")).None? then Fail(HttpError(400, InvalidField))
    else Pass
  }

  /** The listing of page `page` of `limit` rows for the filters of `q`. */
  function List(table: seq<Report>, q: Query, page: int, limit: int, sortField: string, order: SortOrder): (l: Listing)
    requires page >= 1 && limit >= 1
    ensures var matched := Filter(table, q);
            && l.pagination.totalItems == |matched|
            && l.pagination.currentPage == page && l.pagination.itemsPerPage == limit
            && |l.reports| <= limit
            && (|l.reports| > 0 <==> (page - 1) * limit < |matched|)
            && (|l.reports| > 0 ==> (page - 1) * limit + |l.reports| <= |matched|)
            && (forall k :: 0 <= k < |l.reports| ==> l.reports[k] == matched[(page - 1) * limit + k])
            && (forall x :: x in l.reports ==> x in table && Matches(x, q))
            && l.sortField == sortField && l.order == order
  {
    var matched := Filter(table, q);
    var items := Window(matched, (page - 1) * limit, limit);
    MulMono(0, page - 1, limit);
    assert forall x :: x in items ==> x in matched;
    Listing(items, Paginate(page, limit, |matched|), sortField, order)
  }

  /** The handler over the `reports` table, given in the order the requested
      sort produces. */
  function ListReports(table: seq<Report>, caller: Option<User>, q: Query): (r: Result<Listing, HttpError>)
    ensures caller.None? ==> r == Failure(HttpError(401, Unauthenticated))
    ensures caller.Some? && caller.value.role != RoleAdmin ==> r == Failure(HttpError(403, NotAdmin))
    ensures caller.Some? && caller.value.role == RoleAdmin && !ValidQuery(q) ==> r.Failure? && r.error.status == 400
    ensures r.Success? <==> caller.Some? && caller.value.role == RoleAdmin && ValidQuery(q)
    ensures r.Success? ==>
              && r.value.pagination.currentPage == OrDefault(q.page, DefaultPage)
              && r.value.pagination.itemsPerPage == OrDefault(q.limit, DefaultLimit)
              && r.value.sortField == StringOr(q.sortBy, "createdAt")
              && Some(r.value.order) == ParseSortOrder(StringOr(q.sortOrder, "DESC"))
              && r.value.reports == PageOf(Filter(table, q), OrDefault(q.page, DefaultPage), OrDefault(q.limit, DefaultLimit))
  {
    if caller.None? then Failure(HttpError(401, Unauthenticated))
    else if caller.value.role != RoleAdmin then Failure(HttpError(403, NotAdmin))
    else
      match CheckQuery(q)
      case Fail(e) => Failure(e)
      case Pass =>
        Success(List(table, q, OrDefault(q.page, DefaultPage), OrDefault(q.limit, DefaultLimit),
                     StringOr(q.sortBy, "createdAt"), ParseSortOrder(StringOr(q.sortOrder, "DESC")).value))
  }

  /** A status filter of REVIEWED is refused, although reports can hold it. */
  lemma ReviewedFilterRefused(table: seq<Report>, admin: User, q: Query)
    requires admin.role == RoleAdmin
    requires q.status == Some("REVIEWED")
    ensures ListReports(table, Some(admin), q) == Failure(HttpError(400, InvalidField))
  {
    assert "REVIEWED" != AllowedStatuses[0] && "REVIEWED" != AllowedStatuses[1] && "REVIEWED" != AllowedStatuses[2];
  }

  /** An empty query lists the first twenty rows, newest first. */
  lemma EmptyQueryDefaults(table: seq<Report>, admin: User)
    requires admin.role == RoleAdmin
    ensures var r := ListReports(table, Some(admin), Query(None, None, None, None, None, None, None, None));
            && r.Success?
            && r.value.pagination.currentPage == 1 && r.value.pagination.itemsPerPage == 20
            && r.value.sortField == "createdAt" && r.value.order == Desc
  {
    assert UpperEquals("DESC", "DESC");
    assert !UpperEquals("DESC", "ASC");
  }

  /** The page a request names, by number. */
  function PageOf<T>(xs: seq<T>, page: nat, limit: nat): seq<T>
    requires page >= 1
  {
    Window(xs, (page - 1) * limit, limit)
  }

  /** Pages 1 to n, one after another. */
  function PagesUpTo<T>(xs: seq<T>, n: nat, limit: nat): seq<T> {
    if n == 0 then [] else PagesUpTo(xs, n - 1, limit) + PageOf(xs, n, limit)
  }

  /** Where page n ends: after n * limit rows, or at the end. */
  function PagesEnd(n: nat, limit: nat, len: nat): (e: nat)
    ensures e <= len
    ensures e == len || e == n * limit
  {
    if n * limit <= len then n * limit else len
  }

  /** Pages 1 to n together are the first n * limit rows. */
  lemma {:induction false} PagesUpToPrefix<T>(xs: seq<T>, n: nat, limit: nat)
    ensures PagesUpTo(xs, n, limit) == xs[..PagesEnd(n, limit, |xs|)]
  {
    if n > 0 {
      PagesUpToPrefix(xs, n - 1, limit);
      PageIsSlice(xs, n, limit);
      PrefixThenSlice(xs, PagesEnd(n - 1, limit, |xs|), PagesEnd(n, limit, |xs|));
    }
  }

  /** Page n is the slice between the ends of pages n - 1 and n. */
  lemma PageIsSlice<T>(xs: seq<T>, n: nat, limit: nat)
    requires n >= 1
    ensures PagesEnd(n - 1, limit, |xs|) <= PagesEnd(n, limit, |xs|)
    ensures PageOf(xs, n, limit) == xs[PagesEnd(n - 1, limit, |xs|)..PagesEnd(n, limit, |xs|)]
  {
    var a := (n - 1) * limit;
    assert n * limit == a + limit;
  }

  /** A prefix followed by the slice after it is the longer prefix. */
  lemma PrefixThenSlice<T>(xs: seq<T>, lo: nat, hi: nat)
    requires lo <= hi <= |xs|
    ensures xs[..lo] + xs[lo..hi] == xs[..hi]
  {
  }

  /** Walking pages 1 to `totalPages` lists every matching row once, in
      order: the pages partition the result set. */
  lemma PagesCoverAll<T>(xs: seq<T>, limit: nat)
    requires limit >= 1
    ensures PagesUpTo(xs, CeilDiv(|xs|, limit), limit) == xs
  {
    PagesUpToPrefix(xs, CeilDiv(|xs|, limit), limit);
  }

  /** A page has rows exactly when its number is at most `totalPages`, and
      `hasNextPage` says exactly that the following page has rows. */
  lemma PageNonEmptyIff<T>(xs: seq<T>, page: nat, limit: nat)
    requires page >= 1 && limit >= 1
    ensures |PageOf(xs, page, limit)| > 0 <==> page <= CeilDiv(|xs|, limit)
    ensures |PageOf(xs, page + 1, limit)| > 0 <==> Paginate(page, limit, |xs|).hasNextPage
  {
    var total := CeilDiv(|xs|, limit);
    if page <= total {
      MulMono(page - 1, total - 1, limit);
    } else {
      MulMono(total, page - 1, limit);
    }
  }
}

=== FILE: preferences.dfy ===
/** User preferences (`/api/profile/preferences`): GET and PUT both
    find-or-create the caller's row; PUT merges the body into it field by
    field. */
module Preferences {
  import opened Wrappers
  import opened Http

  /** A row of `user_preferences`, keyed by user id. `favoriteTopics` is a
      nullable JSON array. */
  datatype Prefs = Prefs(
    userId: nat,
    favoriteTopics: Option<seq<int>>,
    language: string,
    currency: string,
    theme: string,
    emailNotifications: bool,
    pushNotifications: bool,
    betNotifications: bool,
    eventNotifications: bool,
    taskNotifications: bool,
    systemNotifications: bool)

  /** The row `findOrCreate` inserts: every column at its default. */
  function DefaultPrefs(u: nat): (p: Prefs)
    ensures p.userId == u && p.favoriteTopics == Some([])
    ensures p.language == "en" && p.currency == "USDT" && p.theme == "AUTO"
    ensures p.emailNotifications && p.pushNotifications && p.betNotifications
    ensures p.eventNotifications && p.taskNotifications && p.systemNotifications
  {
    Prefs(u, Some([]), "en", "USDT", "AUTO", true, true, true, true, true, true)
  }

  /** A PUT body. `None` is a member that is `undefined`; for
      `favoriteTopics`, `Some(None)` is an explicit `null`. */
  datatype Patch = Patch(
    favoriteTopics: Option<Option<seq<int>>>,
    language: Option<string>,
    currency: Option<string>,
    theme: Option<string>,
    emailNotifications: Option<bool>,
    pushNotifications: Option<bool>,
    betNotifications: Option<bool>,
    eventNotifications: Option<bool>,
    taskNotifications: Option<bool>,
    systemNotifications: Option<bool>)

  /** The body `{}`. */
  const EmptyPatch := Patch(None, None, None, None, None, None, None, None, None, None)

  /** `value !== undefined ? value : current`. */
  function IfDefined<T>(value: Option<T>, current: T): T {
    if value.Some? then value.value else current
  }

  /** `value || current` for a string member: the empty string keeps the current value. */
  function IfTruthy(value: Option<string>, current: string): string {
    if value.Some? && value.value != "" then value.value else current
  }

  /** The PUT merge rule: a defined member replaces a flag or the topic
      list (`null` included); a non-empty string replaces a text field. */
  function Merge(p: Prefs, b: Patch): (r: Prefs)
    ensures r.userId == p.userId
    ensures b.favoriteTopics.Some? ==> r.favoriteTopics == b.favoriteTopics.value
    ensures b.favoriteTopics.None? ==> r.favoriteTopics == p.favoriteTopics
    ensures b.language.Some? && b.language.value != "" ==> r.language == b.language.value
    ensures b.language.None? || b.language == Some("") ==> r.language == p.language
    ensures b.currency.Some? && b.currency.value != "" ==> r.currency == b.currency.value
    ensures b.currency.None? || b.currency == Some("") ==> r.currency == p.currency
    ensures b.theme.Some? && b.theme.value != "" ==> r.theme == b.theme.value
    ensures b.theme.None? || b.theme == Some("") ==> r.theme == p.theme
    ensures b.emailNotifications.Some? ==> r.emailNotifications == b.emailNotifications.value
    ensures b.emailNotifications.None? ==> r.emailNotifications == p.emailNotifications
    ensures b.pushNotifications.Some? ==> r.pushNotifications == b.pushNotifications.value
    ensures b.pushNotifications.None? ==> r.pushNotifications == p.pushNotifications
    ensures b.betNotifications.Some? ==> r.betNotifications == b.betNotifications.value
    ensures b.betNotifications.None? ==> r.betNotifications == p.betNotifications
    ensures b.eventNotifications.Some? ==> r.eventNotifications == b.eventNotifications.value
    ensures b.eventNotifications.None? ==> r.eventNotifications == p.eventNotifications
    ensures b.taskNotifications.Some? ==> r.taskNotifications == b.taskNotifications.value
    ensures b.taskNotifications.None? ==> r.taskNotifications == p.taskNotifications
    ensures b.systemNotifications.Some? ==> r.systemNotifications == b.systemNotifications.value
    ensures b.systemNotifications.None? ==> r.systemNotifications == p.systemNotifications
  {
    Prefs(
      p.userId,
      IfDefined(b.favoriteTopics, p.favoriteTopics),
      IfTruthy(b.language, p.language),
      IfTruthy(b.currency, p.currency),
      IfTruthy(b.theme, p.theme),
      IfDefined(b.emailNotifications, p.emailNotifications),
      IfDefined(b.pushNotifications, p.pushNotifications),
      IfDefined(b.betNotifications, p.betNotifications),
      IfDefined(b.eventNotifications, p.eventNotifications),
      IfDefined(b.taskNotifications, p.taskNotifications),
      IfDefined(b.systemNotifications, p.systemNotifications))
  }

  /** The member of two bodies that decides a flag or the topic list: the later one when defined. */
  function Later<T>(x: Option<T>, y: Option<T>): Option<T> {
    if y.Some? then y else x
  }

  /** The member of two bodies that decides a text field: the later one when non-empty. */
  function LaterText(x: Option<string>, y: Option<string>): Option<string> {
    if y.Some? && y.value != "" then y else x
  }

  /** The body whose effect is `a` followed by `b`: a member of `b` that
      would replace the field wins, otherwise `a`'s member stands. */
  function Then(a: Patch, b: Patch): Patch {
    Patch(
      Later(a.favoriteTopics, b.favoriteTopics),
      LaterText(a.language, b.language),
      LaterText(a.currency, b.currency),
      LaterText(a.theme, b.theme),
      Later(a.emailNotifications, b.emailNotifications),
      Later(a.pushNotifications, b.pushNotifications),
      Later(a.betNotifications, b.betNotifications),
      Later(a.eventNotifications, b.eventNotifications),
      Later(a.taskNotifications, b.taskNotifications),
      Later(a.systemNotifications, b.systemNotifications))
  }

  /** An empty body changes nothing. */
  lemma MergeEmpty(p: Prefs)
    ensures Merge(p, EmptyPatch) == p
  {
  }

  /** Sending the same body twice is sending it once. */
  lemma MergeIdempotent(p: Prefs, b: Patch)
    ensures Merge(Merge(p, b), b) == Merge(p, b)
  {
  }

  /** Two PUTs in a row act as one PUT of the combined body. */
  lemma MergeThen(p: Prefs, a: Patch, b: Patch)
    ensures Merge(Merge(p, a), b) == Merge(p, Then(a, b))
  {
    var l, r := Merge(Merge(p, a), b), Merge(p, Then(a, b));
    MergeThenText(p, a, b);
    MergeThenFlags(p, a, b);
    MergeThenMoreFlags(p, a, b);
    assert l == Prefs(r.userId, r.favoriteTopics, r.language, r.currency, r.theme, r.emailNotifications,
                      r.pushNotifications, r.betNotifications, r.eventNotifications, r.taskNotifications,
                      r.systemNotifications);
  }

  lemma MergeThenText(p: Prefs, a: Patch, b: Patch)
    ensures var l, r := Merge(Merge(p, a), b), Merge(p, Then(a, b));
      l.userId == r.userId && l.favoriteTopics == r.favoriteTopics &&
      l.language == r.language && l.currency == r.currency && l.theme == r.theme
  {
    IfDefinedThen(a.favoriteTopics, b.favoriteTopics, p.favoriteTopics);
    IfTruthyThen(a.language, b.language, p.language);
    IfTruthyThen(a.currency, b.currency, p.currency);
    IfTruthyThen(a.theme, b.theme, p.theme);
  }

  lemma MergeThenFlags(p: Prefs, a: Patch, b: Patch)
    ensures var l, r := Merge(Merge(p, a), b), Merge(p, Then(a, b));
      && l.emailNotifications == r.emailNotifications && l.pushNotifications == r.pushNotifications
      && l.betNotifications == r.betNotifications
  {
    IfDefinedThen(a.emailNotifications, b.emailNotifications, p.emailNotifications);
    IfDefinedThen(a.pushNotifications, b.pushNotifications, p.pushNotifications);
    IfDefinedThen(a.betNotifications, b.betNotifications, p.betNotifications);
  }

  lemma MergeThenMoreFlags(p: Prefs, a: Patch, b: Patch)
    ensures var l, r := Merge(Merge(p, a), b), Merge(p, Then(a, b));
      && l.eventNotifications == r.eventNotifications && l.taskNotifications == r.taskNotifications
      && l.systemNotifications == r.systemNotifications
  {
    IfDefinedThen(a.eventNotifications, b.eventNotifications, p.eventNotifications);
    IfDefinedThen(a.taskNotifications, b.taskNotifications, p.taskNotifications);
    IfDefinedThen(a.systemNotifications, b.systemNotifications, p.systemNotifications);
  }

  lemma IfDefinedThen<T>(x: Option<T>, y: Option<T>, c: T)
    ensures IfDefined(y, IfDefined(x, c)) == IfDefined(Later(x, y), c)
  {
  }

  lemma IfTruthyThen(x: Option<string>, y: Option<string>, c: string)
    ensures IfTruthy(y, IfTruthy(x, c)) == IfTruthy(LaterText(x, y), c)
  {
  }

  /** The values of the `theme` enumeration column. */
  const Themes: set<string> := {"LIGHT", "DARK", "AUTO"}

  /** A row the database accepts: the two text columns fit their `STRING`
      width and the theme is a value of its enumeration. */
  predicate Storable(p: Prefs) {
    FitsVarchar(p.language) && FitsVarchar(p.currency) && p.theme in Themes
  }

  /** The request method. */
  datatype Method = Get | Put | OtherMethod

  /** `findOrCreate({ where: { userId } })`: the caller's row, inserted with
      defaults when absent. */
  function FindOrCreate(store: map<nat, Prefs>, u: nat): (r: (map<nat, Prefs>, Prefs))
    ensures u in r.0 && r.0[u] == r.1
    ensures u in store ==> r.0 == store && r.1 == store[u]
    ensures u !in store ==> r.0 == store[u := DefaultPrefs(u)]
  {
    if u in store then (store, store[u]) else (store[u := DefaultPrefs(u)], DefaultPrefs(u))
  }

  /** The handler. The store maps user ids to their rows. Nothing runs in
      a transaction: when the update of a PUT fails (500), the row
      `findOrCreate` inserted stays. */
  function HandlePreferences(store: map<nat, Prefs>, caller: Option<nat>, verb: Method, body: Patch): (r: Reply<map<nat, Prefs>, Prefs>)
    ensures caller.None? ==> r == Reply(store, Failure(HttpError(401, Unauthenticated)))
    ensures caller.Some? && verb == OtherMethod ==> r == Reply(store, Failure(HttpError(405, MethodNotAllowed)))
    ensures caller.Some? && verb == Put ==>
              var u := caller.value;
              var current := if u in store then store[u] else DefaultPrefs(u);
              (r.result.Success? <==> Storable(Merge(current, body)))
    ensures r.result.Failure? && r.result.error.status == 500 ==>
              && caller.Some? && verb == Put
              && r.state == (if caller.value in store then store else store[caller.value := DefaultPrefs(caller.value)])
    ensures r.result.Failure? ==> r.result.error.status in {401, 405, 500}
    ensures r.result.Success? ==>
              var u := caller.value;
              var current := if u in store then store[u] else DefaultPrefs(u);
              && caller.Some? && verb != OtherMethod
              && r.state.Keys == store.Keys + {u}
              && (forall v | v in store && v != u :: r.state[v] == store[v])
              && r.result.value == r.state[u]
              && r.state[u] == (if verb == Get then current else Merge(current, body))
  {
    if caller.None? then Refuse(store, 401, Unauthenticated)
    else
      match verb
      case Get =>
        var (s, p) := FindOrCreate(store, caller.value);
        Reply(s, Success(p))
      case Put =>
        var (s, p) := FindOrCreate(store, caller.value);
        var p' := Merge(p, body);
        if !Storable(p') then Refuse(s, 500, Internal)
        else Reply(s[caller.value := p'], Success(p'))
      case OtherMethod => Refuse(store, 405, MethodNotAllowed)
  }

  /** Every stored row is one the database accepts, under its own user id. */
  ghost predicate StoreValid(store: map<nat, Prefs>) {
    forall u | u in store :: store[u].userId == u && Storable(store[u])
  }

  /** Every request, answered or refused, keeps the store valid. */
  lemma HandleKeepsStoreValid(store: map<nat, Prefs>, caller: Option<nat>, verb: Method, body: Patch)
    requires StoreValid(store)
    ensures StoreValid(HandlePreferences(store, caller, verb, body).state)
  {
  }

  /** In a valid store a GET always succeeds, and a PUT fails exactly when
      it names a theme outside the enumeration or a language or currency
      longer than its column. */
  lemma PutFailsOnlyOnBadValue(store: map<nat, Prefs>, u: nat, body: Patch)
    requires StoreValid(store)
    ensures HandlePreferences(store, Some(u), Get, body).result.Success?
    ensures HandlePreferences(store, Some(u), Put, body).result.Failure? <==>
              || (body.theme.Some? && body.theme.value != "" && body.theme.value !in Themes)
              || (body.language.Some? && !FitsVarchar(body.language.value))
              || (body.currency.Some? && !FitsVarchar(body.currency.value))
  {
    assert Storable(DefaultPrefs(u));
  }

  /** A PUT with an empty body stores and answers what a GET would. */
  lemma EmptyPutIsGet(store: map<nat, Prefs>, u: nat)
    requires StoreValid(store)
    ensures HandlePreferences(store, Some(u), Put, EmptyPatch) == HandlePreferences(store, Some(u), Get, EmptyPatch)
  {
    var (s, p) := FindOrCreate(store, u);
    MergeEmpty(p);
    assert s[u := p] == s;
  }
}

=== FILE: reports.dfy ===
/** Content reports (`POST /api/reports`): input validation, the existence
    check of the reported event or comment, the one-open-report rule and the
    stored form. */
module Reports {
  import opened Wrappers
  import opened Http
  import opened Text

  /** `reports.entity_type`. */
  datatype EntityType = EventEntity | CommentEntity

  /** `reports.status`, default PENDING. */
  datatype ReportStatus = ReportPending | Reviewed | ReportResolved | Dismissed

  /** A row of `reports`. */
  datatype Report = Report(id: nat, reporterId: nat, entityType: EntityType, entityId: nat, reason: string, status: ReportStatus)

  /** The `reports` table and the next value of its id sequence. */
  datatype ReportTable = ReportTable(rows: seq<Report>, next: Serial)

  /** The request body. A falsy `entityId` is `None`. */
  datatype ReportBody = ReportBody(entityType: Field, entityId: Option<nat>, reason: Field)

  /** A report that still blocks a new one: PENDING or REVIEWED. */
  predicate Open(r: Report) {
    r.status == ReportPending || r.status == Reviewed
  }

  /** The reporter already has an open report on this entity. */
  predicate HasOpenReport(t: ReportTable, reporter: nat, kind: EntityType, id: nat) {
    exists i :: 0 <= i < |t.rows| && t.rows[i].reporterId == reporter && t.rows[i].entityType == kind
                && t.rows[i].entityId == id && Open(t.rows[i])
  }

  /** The entity type a field names, if it names one of the two allowed. */
  function ParseEntityType(f: Field): (r: Option<EntityType>)
    ensures r == Some(EventEntity) <==> f == Str("EVENT")
    ensures r == Some(CommentEntity) <==> f == Str("COMMENT")
  {
    if f == Str("EVENT") then Some(EventEntity)
    else if f == Str("COMMENT") then Some(CommentEntity)
    else None
  }

  /** A reason the handler accepts: a string with something besides
      whitespace, at most 1000 UTF-16 code units long before trimming. */
  predicate ValidReason(f: Field) {
    f.Str? && Trim(f.s) != "" && JsLength(f.s) <= 1000
  }

  /** File a report as `caller` against an event or a comment; the ids of
      the existing events and comments are given. */
  function CreateReport(t: ReportTable, events: set<nat>, comments: set<nat>, caller: Option<nat>, body: ReportBody): (r: Reply<ReportTable, Report>)
    ensures RolledBack(t, r)
    ensures caller.None? ==> r.result == Failure(HttpError(401, Unauthenticated))
    ensures caller.Some? && (Falsy(body.entityType) || body.entityId.None? || Falsy(body.reason)) ==>
              r.result == Failure(HttpError(400, MissingField))
    ensures ParseEntityType(body.entityType).None? || !ValidReason(body.reason) ==>
              r.result.Failure? && r.result.error.status in {400, 401}
    ensures r.result.Success? <==>
              && caller.Some? && body.entityId.Some? && ParseEntityType(body.entityType).Some? && ValidReason(body.reason)
              && body.entityId.value in (if ParseEntityType(body.entityType) == Some(EventEntity) then events else comments)
              && !HasOpenReport(t, caller.value, ParseEntityType(body.entityType).value, body.entityId.value)
    ensures caller.Some? && body.entityId.Some? && ParseEntityType(body.entityType).Some? && ValidReason(body.reason) &&
            body.entityId.value in (if ParseEntityType(body.entityType) == Some(EventEntity) then events else comments) &&
            HasOpenReport(t, caller.value, ParseEntityType(body.entityType).value, body.entityId.value) ==>
              r.result == Failure(HttpError(400, AlreadyReported))
    ensures caller.Some? && body.entityId.Some? && ParseEntityType(body.entityType).Some? && ValidReason(body.reason) &&
            body.entityId.value !in (if ParseEntityType(body.entityType) == Some(EventEntity) then events else comments) ==>
              r.result == Failure(HttpError(404, EntityNotFound))
    ensures r.result.Failure? && r.result.error.status == 404 ==>
              body.entityId.value !in (if ParseEntityType(body.entityType) == Some(EventEntity) then events else comments)
    ensures r.result.Success? ==>
              && r.result.value == Report(t.next, caller.value, ParseEntityType(body.entityType).value, body.entityId.value,
                                          Trim(body.reason.s), ReportPending)
              && r.state == ReportTable(t.rows + [r.result.value], t.next + 1)
  {
    if caller.None? then Refuse(t, 401, Unauthenticated)
    else if Falsy(body.entityType) || body.entityId.None? || Falsy(body.reason) then Refuse(t, 400, MissingField)
    else
      var kind := ParseEntityType(body.entityType);
      if kind.None? then Refuse(t, 400, InvalidField)
      else if !body.reason.Str? || Trim(body.reason.s) == "" then Refuse(t, 400, InvalidField)
      else if JsLength(body.reason.s) > 1000 then Refuse(t, 400, TooLong)
      else
        var id := body.entityId.value;
        var found := if kind.value == EventEntity then id in events else id in comments;
        if !found then Refuse(t, 404, EntityNotFound)
        else if HasOpenReport(t, caller.value, kind.value, id) then Refuse(t, 400, AlreadyReported)
        else
          var report := Report(t.next, caller.value, kind.value, id, Trim(body.reason.s), ReportPending);
          Reply(ReportTable(t.rows + [report], t.next + 1), Success(report))
  }

  /** The invariant the duplicate rule keeps: no reporter has two open
      reports on the same entity. */
  ghost predicate OneOpenReport(t: ReportTable) {
    forall i, j | 0 <= i < j < |t.rows| ::
      !(Open(t.rows[i]) && Open(t.rows[j]) && t.rows[i].reporterId == t.rows[j].reporterId &&
        t.rows[i].entityType == t.rows[j].entityType && t.rows[i].entityId == t.rows[j].entityId)
  }

  /** Filing a report keeps at most one open report per reporter and entity. */
  lemma CreateReportKeepsOneOpen(t: ReportTable, events: set<nat>, comments: set<nat>, caller: Option<nat>, body: ReportBody)
    requires OneOpenReport(t)
    ensures OneOpenReport(CreateReport(t, events, comments, caller, body).state)
  {
    var r := CreateReport(t, events, comments, caller, body);
    if r.result.Success? {
      var rep := r.result.value;
      var rows := r.state.rows;
      assert rows == t.rows + [rep];
      assert !HasOpenReport(t, rep.reporterId, rep.entityType, rep.entityId);
      forall i, j | 0 <= i < j < |rows|
        ensures !(Open(rows[i]) && Open(rows[j]) && rows[i].reporterId == rows[j].reporterId &&
                  rows[i].entityType == rows[j].entityType && rows[i].entityId == rows[j].entityId)
      {
        assert rows[i] == t.rows[i];
        if j < |t.rows| { assert rows[j] == t.rows[j]; }
      }
    }
  }

  /** A report that was resolved or dismissed no longer blocks a new one. */
  lemma ClosedReportAllowsNewOne(t: ReportTable, events: set<nat>, comments: set<nat>, caller: nat, body: ReportBody)
    requires CreateReport(t, events, comments, Some(caller), body).result.Success?
    requires forall i | 0 <= i < |t.rows| :: t.rows[i].status in {ReportResolved, Dismissed}
    ensures var t' := CreateReport(t, events, comments, Some(caller), body).state;
      var t'' := t'.(rows := t'.rows[|t.rows| := t'.rows[|t.rows|].(status := Dismissed)]);
      CreateReport(t'', events, comments, Some(caller), body).result.Success?
  {
    var t' := CreateReport(t, events, comments, Some(caller), body).state;
    var t'' := t'.(rows := t'.rows[|t.rows| := t'.rows[|t.rows|].(status := Dismissed)]);
    NoneOpen(t'');
  }

  /** A table whose reports are all closed holds no open report. */
  lemma NoneOpen(t: ReportTable)
    requires forall i | 0 <= i < |t.rows| :: t.rows[i].status in {ReportResolved, Dismissed}
    ensures forall reporter, kind, id :: !HasOpenReport(t, reporter, kind, id)
  {
  }

  /** A second report by the same reporter on the same entity, while the
      first is still pending, is refused. */
  lemma SecondReportRefused(t: ReportTable, events: set<nat>, comments: set<nat>, caller: nat, body: ReportBody)
    requires CreateReport(t, events, comments, Some(caller), body).result.Success?
    ensures var t' := CreateReport(t, events, comments, Some(caller), body).state;
      CreateReport(t', events, comments, Some(caller), body).result == Failure(HttpError(400, AlreadyReported))
  {
    var t' := CreateReport(t, events, comments, Some(caller), body).state;
    assert t'.rows[|t.rows|].reporterId == caller;
  }
}

=== FILE: seqs.dfy ===
/** Order-preserving selection from a sequence: what a `WHERE` clause over a
    table, or a filter over an array, returns. Stated once for every table
    the handlers select from. */
module Seqs {
  /** The positions of the elements satisfying `p`, ascending: a reference
      description of a selection that does not say how it is collected. */
  ghost function Positions<T>(xs: seq<T>, p: T -> bool): (ix: seq<nat>)
    ensures forall k :: 0 <= k < |ix| ==> ix[k] < |xs| && p(xs[ix[k]])
    ensures forall k, l :: 0 <= k < l < |ix| ==> ix[k] < ix[l]
    ensures forall i :: 0 <= i < |xs| && p(xs[i]) ==> i in ix
    decreases |xs|
  {
    if |xs| == 0 then []
    else
      var rest := Positions(xs[1..], p);
      ConsSatisfies(xs, p, rest);
      ConsAscending(p(xs[0]), rest);
      ConsCovers(xs, p, rest);
      (if p(xs[0]) then [0] else []) + Shift(rest)
  }

  /** Positions in `xs[1..]` that satisfy `p`, moved right, behind the
      first position when it satisfies `p`, satisfy `p` in `xs`. */
  lemma ConsSatisfies<T>(xs: seq<T>, p: T -> bool, rest: seq<nat>)
    requires |xs| > 0
    requires forall k :: 0 <= k < |rest| ==> rest[k] < |xs| - 1 && p(xs[1..][rest[k]])
    ensures var ix := (if p(xs[0]) then [0] else []) + Shift(rest);
      forall k :: 0 <= k < |ix| ==> ix[k] < |xs| && p(xs[ix[k]])
  {
    var ix := (if p(xs[0]) then [0] else []) + Shift(rest);
    forall k | 0 <= k < |ix| ensures ix[k] < |xs| && p(xs[ix[k]]) {
      if p(xs[0]) && k == 0 {
      } else {
        var j := if p(xs[0]) then k - 1 else k;
        assert ix[k] == rest[j] + 1;
        assert xs[1..][rest[j]] == xs[ix[k]];
      }
    }
  }

  /** Moving ascending positions right, behind 0 or not, keeps them ascending. */
  lemma ConsAscending(b: bool, rest: seq<nat>)
    requires forall k, l :: 0 <= k < l < |rest| ==> rest[k] < rest[l]
    ensures var ix := (if b then [0] else []) + Shift(rest);
      forall k, l :: 0 <= k < l < |ix| ==> ix[k] < ix[l]
  {
  }

  /** Every satisfying position of `xs` is the first one or a satisfying
      position of `xs[1..]` moved right. */
  lemma ConsCovers<T>(xs: seq<T>, p: T -> bool, rest: seq<nat>)
    requires |xs| > 0
    requires forall i :: 0 <= i < |xs| - 1 && p(xs[1..][i]) ==> i in rest
    ensures var ix := (if p(xs[0]) then [0] else []) + Shift(rest);
      forall i :: 0 <= i < |xs| && p(xs[i]) ==> i in ix
  {
    var shifted := Shift(rest);
    var ix := (if p(xs[0]) then [0] else []) + shifted;
    var d := if p(xs[0]) then 1 else 0;
    forall i | 1 <= i < |xs| && p(xs[i]) ensures i in ix {
      assert xs[1..][i - 1] == xs[i];
      var k :| 0 <= k < |rest| && rest[k] == i - 1;
      assert ix[k + d] == i;
    }
  }

  /** Every position moved one place to the right. */
  ghost function Shift(ix: seq<nat>): (r: seq<nat>)
    ensures |r| == |ix| && forall k :: 0 <= k < |ix| ==> r[k] == ix[k] + 1
  {
    seq(|ix|, k requires 0 <= k < |ix| => ix[k] + 1)
  }

  /** The elements satisfying `p`, in their order. */
  function Keep<T(==,!new)>(xs: seq<T>, p: T -> bool): (r: seq<T>)
    ensures |r| <= |xs|
    ensures forall x :: x in r <==> x in xs && p(x)
    decreases |xs|
  {
    if |xs| == 0 then []
    else
      assert forall x :: x in xs <==> x == xs[0] || x in xs[1..];
      if p(xs[0]) then [xs[0]] + Keep(xs[1..], p) else Keep(xs[1..], p)
  }

  /** The k-th kept element is the one at the k-th satisfying position:
      the order and every repetition are kept. */
  lemma {:induction false} KeepIsPositions<T(!new)>(xs: seq<T>, p: T -> bool)
    ensures var r, ix := Keep(xs, p), Positions(xs, p);
      |r| == |ix| && forall k :: 0 <= k < |r| ==> r[k] == xs[ix[k]]
    decreases |xs|
  {
    if |xs| > 0 {
      KeepIsPositions(xs[1..], p);
      PositionsStep(xs, p);
      KeepStep(xs, p);
      ConsIndex(xs, p(xs[0]), Keep(xs[1..], p), Positions(xs[1..], p));
    }
  }

  /** One step of `Keep`: the first element, if it satisfies `p`, then
      the selection from the rest. */
  lemma KeepStep<T(!new)>(xs: seq<T>, p: T -> bool)
    requires |xs| > 0
    ensures Keep(xs, p) == (if p(xs[0]) then [xs[0]] else []) + Keep(xs[1..], p)
  {
    if !p(xs[0]) {
      assert [] + Keep(xs[1..], p) == Keep(xs[1..], p);
    }
  }

  /** Putting the first element, when kept, in front of a selection from
      the rest keeps "the k-th kept element sits at the k-th position". */
  lemma ConsIndex<T>(xs: seq<T>, b: bool, rest: seq<T>, ix: seq<nat>)
    requires |xs| > 0 && |rest| == |ix|
    requires forall k :: 0 <= k < |ix| ==> ix[k] < |xs| - 1 && rest[k] == xs[1..][ix[k]]
    ensures var r, jx := (if b then [xs[0]] else []) + rest, (if b then [0] else []) + Shift(ix);
      |r| == |jx| && forall k :: 0 <= k < |r| ==> jx[k] < |xs| && r[k] == xs[jx[k]]
  {
  }

  /** One step of `Positions`: the first position, if it satisfies `p`,
      then the rest moved one place. */
  lemma PositionsStep<T>(xs: seq<T>, p: T -> bool)
    requires |xs| > 0
    ensures Positions(xs, p) == (if p(xs[0]) then [0] else []) + Shift(Positions(xs[1..], p))
  {
  }

  /** An element satisfying `p` is kept as often as it occurs; any other
      element not at all. */
  lemma {:induction false} KeepCounts<T(!new)>(xs: seq<T>, p: T -> bool)
    ensures forall x :: multiset(Keep(xs, p))[x] == if p(x) then multiset(xs)[x] else 0
    decreases |xs|
  {
    if |xs| > 0 {
      KeepCounts(xs[1..], p);
      assert xs == [xs[0]] + xs[1..];
      assert multiset(xs) == multiset{xs[0]} + multiset(xs[1..]);
    }
  }

  /** `f` applied to every element, in order. */
  function Project<T, U>(xs: seq<T>, f: T -> U): (r: seq<U>)
    ensures |r| == |xs| && forall k :: 0 <= k < |xs| ==> r[k] == f(xs[k])
  {
    seq(|xs|, k requires 0 <= k < |xs| => f(xs[k]))
  }

  /** The projections of the kept elements: the k-th is the projection of
      the element at the k-th satisfying position, and a value occurs
      exactly when some satisfying element projects to it. */
  lemma ProjectKeep<T(!new), U>(xs: seq<T>, p: T -> bool, f: T -> U)
    ensures var r, ix := Project(Keep(xs, p), f), Positions(xs, p);
      |r| == |ix| && forall k :: 0 <= k < |r| ==> r[k] == f(xs[ix[k]])
    ensures forall y :: y in Project(Keep(xs, p), f) <==> exists i :: 0 <= i < |xs| && p(xs[i]) && f(xs[i]) == y
  {
    KeepIsPositions(xs, p);
    var r, ix := Project(Keep(xs, p), f), Positions(xs, p);
    forall y | y in r ensures exists i :: 0 <= i < |xs| && p(xs[i]) && f(xs[i]) == y {
      var k :| 0 <= k < |r| && r[k] == y;
      assert p(xs[ix[k]]) && f(xs[ix[k]]) == y;
    }
    forall i | 0 <= i < |xs| && p(xs[i]) ensures f(xs[i]) in r {
      var k :| 0 <= k < |ix| && ix[k] == i;
      assert r[k] == f(xs[i]);
    }
  }
}

=== FILE: tags.dfy ===
/** Tag creation (`POST /api/admin/tags`): name validation and
    normalisation, the uniqueness and parent checks, and the stored form. */
module Tags {
  import opened Wrappers
  import opened Http
  import opened Text

  /** A row of `tags`. `name` is unique; `parentId` points at another tag. */
  datatype Tag = Tag(id: nat, name: string, description: Option<string>, parentId: Option<nat>)

  /** The `tags` table and the next value of its id sequence. */
  datatype TagTable = TagTable(rows: seq<Tag>, next: Serial)

  /** The `description` field: absent or `null`, a string, or another JSON
      value, which has no `trim` method, so `description?.trim()` throws. */
  datatype Description = NoDescription | StringValue(s: string) | NotText

  /** The request body. A falsy `parentId` is `None`. */
  datatype TagBody = TagBody(name: Field, description: Description, parentId: Option<nat>)

  predicate NameTaken(t: TagTable, name: string) {
    exists i :: 0 <= i < |t.rows| && t.rows[i].name == name
  }

  predicate TagExists(t: TagTable, id: nat) {
    exists i :: 0 <= i < |t.rows| && t.rows[i].id == id
  }

  /** The stored description: trimmed, or null when nothing is left. */
  function StoredDescription(d: Description): (r: Option<string>)
    requires !d.NotText?
    ensures r.Some? ==> d.StringValue? && r.value == Trim(d.s) && r.value != ""
    ensures r.None? ==> d.NoDescription? || Trim(d.s) == ""
  {
    if d.NoDescription? || Trim(d.s) == "" then None else Some(Trim(d.s))
  }

  /** A name the handler accepts before looking at the table: a string
      that, trimmed, is 2 to 50 UTF-16 code units long. */
  predicate ValidName(f: Field) {
    f.Str? && 2 <= JsLength(Trim(f.s)) <= 50
  }

  /** The name checks, in the handler's order: the trimmed name, or the 400
      for a missing, non-string or blank name, one shorter than 2 units or
      one longer than 50. */
  function CheckName(f: Field): (r: Result<string, HttpError>)
    ensures r.Success? <==> ValidName(f)
    ensures r.Success? ==> r.value == Trim(f.s)
    ensures r.Failure? ==> r.error.status == 400
  {
    if Falsy(f) || !f.Str? || Trim(f.s) == "" then Failure(HttpError(400, MissingField))
    else if JsLength(Trim(f.s)) < 2 then Failure(HttpError(400, TooShort))
    else if JsLength(Trim(f.s)) > 50 then Failure(HttpError(400, TooLong))
    else Success(Trim(f.s))
  }

  /** Create a tag. */
  function CreateTag(t: TagTable, body: TagBody): (r: Reply<TagTable, Tag>)
    ensures RolledBack(t, r)
    ensures !ValidName(body.name) ==> r.result.Failure? && r.result.error.status == 400
    ensures ValidName(body.name) && NameTaken(t, Trim(body.name.s)) ==> r.result == Failure(HttpError(409, Duplicate))
    ensures ValidName(body.name) && !NameTaken(t, Trim(body.name.s)) && body.parentId.Some? && !TagExists(t, body.parentId.value) ==>
              r.result == Failure(HttpError(400, ParentNotFound))
    ensures ValidName(body.name) && !NameTaken(t, Trim(body.name.s)) &&
            (body.parentId.None? || TagExists(t, body.parentId.value)) && body.description.NotText? ==>
              r.result == Failure(HttpError(500, Internal))
    ensures r.result.Success? <==>
              ValidName(body.name) && !NameTaken(t, Trim(body.name.s)) &&
              (body.parentId.None? || TagExists(t, body.parentId.value)) && !body.description.NotText?
    ensures r.result.Success? ==>
              && r.result.value.id == t.next
              && r.result.value.name == Trim(body.name.s)
              && r.result.value.description == StoredDescription(body.description)
              && r.result.value.parentId == body.parentId
              && r.state == TagTable(t.rows + [r.result.value], t.next + 1)
  {
    match CheckName(body.name)
    case Failure(e) => Reply(t, Failure(e))
    case Success(name) =>
      if NameTaken(t, name) then Refuse(t, 409, Duplicate)
      else if body.parentId.Some? && !TagExists(t, body.parentId.value) then Refuse(t, 400, ParentNotFound)
      else if body.description.NotText? then Refuse(t, 500, Internal)
      else
        var tag := Tag(t.next, name, StoredDescription(body.description), body.parentId);
        Reply(TagTable(t.rows + [tag], t.next + 1), Success(tag))
  }

  /** The invariant of `tags`: names are unique, trimmed and of valid
      length, and ids are below the sequence. */
  ghost predicate TableValid(t: TagTable) {
    && (forall i, j | 0 <= i < j < |t.rows| :: t.rows[i].name != t.rows[j].name)
    && (forall i | 0 <= i < |t.rows| :: t.rows[i].id < t.next)
    && (forall i | 0 <= i < |t.rows| :: Trim(t.rows[i].name) == t.rows[i].name)
  }

  /** Creating a tag keeps the table valid. */
  lemma CreateTagKeepsTableValid(t: TagTable, body: TagBody)
    requires TableValid(t)
    ensures TableValid(CreateTag(t, body).state)
  {
    var r := CreateTag(t, body);
    if r.result.Success? {
      TrimIdempotent(body.name.s);
      AppendKeepsTableValid(t, r.result.value);
    }
  }

  /** Appending a trimmed tag under a fresh name and the next id keeps the table valid. */
  lemma AppendKeepsTableValid(t: TagTable, tag: Tag)
    requires TableValid(t)
    requires !NameTaken(t, tag.name) && Trim(tag.name) == tag.name && tag.id == t.next
    ensures TableValid(TagTable(t.rows + [tag], t.next + 1))
  {
    AppendKeepsNamesUnique(t.rows, tag);
    AppendKeepsIdsBelow(t.rows, tag, t.next);
    AppendKeepsNamesTrimmed(t.rows, tag);
  }

  lemma AppendKeepsNamesUnique(rows: seq<Tag>, tag: Tag)
    requires forall i, j | 0 <= i < j < |rows| :: rows[i].name != rows[j].name
    requires forall i | 0 <= i < |rows| :: rows[i].name != tag.name
    ensures var rows' := rows + [tag];
      forall i, j | 0 <= i < j < |rows'| :: rows'[i].name != rows'[j].name
  {
    var rows' := rows + [tag];
    forall i, j | 0 <= i < j < |rows'| ensures rows'[i].name != rows'[j].name {
      assert rows'[i] == rows[i];
      if j < |rows| { assert rows'[j] == rows[j]; } else { assert rows'[j] == tag; }
    }
  }

  lemma AppendKeepsIdsBelow(rows: seq<Tag>, tag: Tag, next: nat)
    requires forall i | 0 <= i < |rows| :: rows[i].id < next
    requires tag.id == next
    ensures var rows' := rows + [tag];
      forall i | 0 <= i < |rows'| :: rows'[i].id < next + 1
  {
    var rows' := rows + [tag];
    forall i | 0 <= i < |rows'| ensures rows'[i].id < next + 1 {
      if i < |rows| { assert rows'[i] == rows[i]; } else { assert rows'[i] == tag; }
    }
  }

  lemma AppendKeepsNamesTrimmed(rows: seq<Tag>, tag: Tag)
    requires forall i | 0 <= i < |rows| :: Trim(rows[i].name) == rows[i].name
    requires Trim(tag.name) == tag.name
    ensures var rows' := rows + [tag];
      forall i | 0 <= i < |rows'| :: Trim(rows'[i].name) == rows'[i].name
  {
    var rows' := rows + [tag];
    forall i | 0 <= i < |rows'| ensures Trim(rows'[i].name) == rows'[i].name {
      if i < |rows| { assert rows'[i] == rows[i]; } else { assert rows'[i] == tag; }
    }
  }

  /** Creating the same name twice: the second request is a conflict. */
  lemma CreateTagTwiceConflicts(t: TagTable, body: TagBody, body2: TagBody)
    requires CreateTag(t, body).result.Success?
    requires body2.name.Str? && Trim(body2.name.s) == Trim(body.name.s)
    ensures CreateTag(CreateTag(t, body).state, body2).result == Failure(HttpError(409, Duplicate))
  {
    var r := CreateTag(t, body);
    var t' := r.state;
    assert ValidName(body2.name);
    assert t'.rows[|t.rows|] == r.result.value;
    assert NameTaken(t', Trim(body2.name.s));
  }
}

=== FILE: templates.dfy ===
/** Event-template creation (`POST /api/admin/templates`): the structure
    validator, the required fields, the unique name and the stored form. */
module Templates {
  import opened Wrappers
  import opened Http

  /** The `inputs` member of a structure: an array of some length, or any other value. */
  datatype Inputs = NotArray | ArrayOf(length: nat)

  /** The `structure` member of the body: a falsy value, a truthy value that
      is not an object, or an object (arrays included) with the three members
      the validator reads. */
  datatype Structure = FalsyValue | Primitive | Object(templateType: Field, titleStructure: Field, inputs: Inputs)

  /** `isValidTemplateStructure`: the structure is an object whose
      `templateType` is one of the three kinds, whose `titleStructure` is a
      non-empty string and whose `inputs` is a non-empty array. */
  function IsValidTemplateStructure(s: Structure): (b: bool)
    ensures s.FalsyValue? || s.Primitive? ==> !b
    ensures b ==> s.Object? && s.templateType.Str? && s.templateType.s in {"BINARY", "COMPETITIVE", "HEAD_TO_HEAD"}
    ensures b ==> s.titleStructure.Str? && s.titleStructure.s != ""
    ensures b ==> s.inputs.ArrayOf? && s.inputs.length > 0
  {
    && s.Object?
    && s.templateType in {Str("BINARY"), Str("COMPETITIVE"), Str("HEAD_TO_HEAD")}
    && s.titleStructure.Str? && s.titleStructure.s != ""
    && s.inputs.ArrayOf? && s.inputs.length > 0
  }

  /** The values of the `creator_type` enumeration column. */
  const CreatorTypes: set<string> := {"ADMIN", "USER", "BOTH"}

  /** A row of `event_templates`. */
  datatype Template = Template(id: nat, name: string, description: Option<string>, structure: Structure,
                               creatorType: string, isActive: bool)

  /** The `event_templates` table and the next value of its id sequence. */
  datatype TemplateTable = TemplateTable(rows: seq<Template>, next: Serial)

  /** The request body. An empty string counts as missing. */
  datatype TemplateBody = TemplateBody(name: Option<string>, description: Option<string>,
                                       structure: Structure, creatorType: Option<string>)

  predicate NameTaken(t: TemplateTable, name: string) {
    exists i :: 0 <= i < |t.rows| && t.rows[i].name == name
  }

  /** The body is complete and its structure valid: the handler's own checks pass. */
  predicate Checked(body: TemplateBody) {
    && body.name.Some? && body.name.value != "" && body.creatorType.Some? && body.creatorType.value != ""
    && IsValidTemplateStructure(body.structure)
  }

  /** The values of a checked body the database accepts: the name fits its
      `STRING` column and the creator type is a value of its enumeration. */
  predicate Insertable(body: TemplateBody)
    requires Checked(body)
  {
    FitsVarchar(body.name.value) && body.creatorType.value in CreatorTypes
  }

  /** Create a template. A name too long for its column or a creator type
      outside its enumeration fails the insert (500); a name already in the
      table violates the unique index, which the handler turns into 409. */
  function CreateTemplate(t: TemplateTable, body: TemplateBody): (r: Reply<TemplateTable, Template>)
    ensures RolledBack(t, r)
    ensures body.name.None? || body.name == Some("") || body.structure.FalsyValue? ||
            body.creatorType.None? || body.creatorType == Some("") ==>
              r.result == Failure(HttpError(400, MissingField))
    ensures !IsValidTemplateStructure(body.structure) ==> r.result.Failure? && r.result.error.status == 400
    ensures Checked(body) && !Insertable(body) ==> r.result == Failure(HttpError(500, Internal))
    ensures Checked(body) && Insertable(body) && NameTaken(t, body.name.value) ==>
              r.result == Failure(HttpError(409, Duplicate))
    ensures r.result.Success? <==> Checked(body) && Insertable(body) && !NameTaken(t, body.name.value)
    ensures r.result.Failure? && r.result.error.status == 409 ==> NameTaken(t, body.name.value)
    ensures r.result.Success? ==>
              && r.result.value == Template(t.next, body.name.value, body.description, body.structure, body.creatorType.value, true)
              && r.state == TemplateTable(t.rows + [r.result.value], t.next + 1)
  {
    if body.name.None? || body.name.value == "" || body.structure.FalsyValue? ||
       body.creatorType.None? || body.creatorType.value == "" then
      Refuse(t, 400, MissingField)
    else if !IsValidTemplateStructure(body.structure) then Refuse(t, 400, InvalidStructure)
    else if !FitsVarchar(body.name.value) || body.creatorType.value !in CreatorTypes then Refuse(t, 500, Internal)
    else if NameTaken(t, body.name.value) then Refuse(t, 409, Duplicate)
    else
      var tpl := Template(t.next, body.name.value, body.description, body.structure, body.creatorType.value, true);
      Reply(TemplateTable(t.rows + [tpl], t.next + 1), Success(tpl))
  }

  /** The invariant of `event_templates`: names are unique and fit their
      column, creator types are values of their enumeration, and every row
      holds a valid structure. */
  ghost predicate TableValid(t: TemplateTable) {
    && (forall i, j | 0 <= i < j < |t.rows| :: t.rows[i].name != t.rows[j].name)
    && (forall i | 0 <= i < |t.rows| :: IsValidTemplateStructure(t.rows[i].structure))
    && (forall i | 0 <= i < |t.rows| :: FitsVarchar(t.rows[i].name) && t.rows[i].creatorType in CreatorTypes)
  }

  /** Creating a template keeps the table valid. */
  lemma CreateTemplateKeepsTableValid(t: TemplateTable, body: TemplateBody)
    requires TableValid(t)
    ensures TableValid(CreateTemplate(t, body).state)
  {
    var r := CreateTemplate(t, body);
    if r.result.Success? {
      var rows := r.state.rows;
      assert rows == t.rows + [r.result.value];
      forall i, j | 0 <= i < j < |rows| ensures rows[i].name != rows[j].name {
        assert rows[i] == t.rows[i];
        if j < |t.rows| { assert rows[j] == t.rows[j]; }
      }
    }
  }
}

=== FILE: text.dfy ===
/** The JavaScript string operations the validators rely on: `trim` and
    `length`, which counts UTF-16 code units. */
module Text {

  /** The characters `String.prototype.trim` removes: the ECMAScript
      WhiteSpace and LineTerminator code points. */
  predicate IsJsWhitespace(c: char) {
    || c == '\t' || c == '\n' || c == '\U{000B}' || c == '\U{000C}' || c == '\r' || c == ' '
    || c == '\U{00A0}' || c == '\U{1680}' || ('\U{2000}' <= c <= '\U{200A}')
    || c == '\U{2028}' || c == '\U{2029}' || c == '\U{202F}' || c == '\U{205F}'
    || c == '\U{3000}' || c == '\U{FEFF}'
  }

  /** Drop leading whitespace. */
  function TrimStart(s: string): (r: string)
    ensures |r| <= |s| && r == s[|s| - |r|..]
    ensures forall i :: 0 <= i < |s| - |r| ==> IsJsWhitespace(s[i])
    ensures |r| > 0 ==> !IsJsWhitespace(r[0])
    decreases |s|
  {
    if |s| > 0 && IsJsWhitespace(s[0]) then TrimStart(s[1..]) else s
  }

  /** Drop trailing whitespace. */
  function TrimEnd(s: string): (r: string)
    ensures |r| <= |s| && r == s[..|r|]
    ensures forall i :: |r| <= i < |s| ==> IsJsWhitespace(s[i])
    ensures |r| > 0 ==> !IsJsWhitespace(r[|r| - 1])
    decreases |s|
  {
    if |s| > 0 && IsJsWhitespace(s[|s| - 1]) then TrimEnd(s[..|s| - 1]) else s
  }

  /** `s.trim()`: the longest middle slice of `s` that neither starts nor
      ends with whitespace; empty exactly when `s` is all whitespace. */
  function Trim(s: string): (r: string)
    ensures |r| <= |s|
    ensures |r| > 0 ==> !IsJsWhitespace(r[0]) && !IsJsWhitespace(r[|r| - 1])
    ensures r == [] <==> forall i :: 0 <= i < |s| ==> IsJsWhitespace(s[i])
  {
    TrimEnd(TrimStart(s))
  }

  /** `Trim(s)` is the slice of `s` between a run of leading and a run of
      trailing whitespace. */
  lemma TrimSlice(s: string) returns (lo: nat)
    ensures lo + |Trim(s)| <= |s| && Trim(s) == s[lo..lo + |Trim(s)|]
    ensures forall i :: 0 <= i < lo ==> IsJsWhitespace(s[i])
    ensures forall i :: lo + |Trim(s)| <= i < |s| ==> IsJsWhitespace(s[i])
  {
    var t := TrimStart(s);
    lo := SliceBetween(s, t, TrimEnd(t));
  }

  /** A prefix `r` of a suffix `t` of `s`, where what the suffix drops and
      what the prefix drops is whitespace, is a middle slice of `s` with
      whitespace on both sides. */
  lemma SliceBetween(s: string, t: string, r: string) returns (lo: nat)
    requires |t| <= |s| && t == s[|s| - |t|..] && forall i :: 0 <= i < |s| - |t| ==> IsJsWhitespace(s[i])
    requires |r| <= |t| && r == t[..|r|] && forall i :: |r| <= i < |t| ==> IsJsWhitespace(t[i])
    ensures lo == |s| - |t|
    ensures lo + |r| <= |s| && r == s[lo..lo + |r|]
    ensures forall i :: 0 <= i < lo ==> IsJsWhitespace(s[i])
    ensures forall i :: lo + |r| <= i < |s| ==> IsJsWhitespace(s[i])
  {
    lo := |s| - |t|;
    SliceOfSuffix(s, lo, |r|);
    WhitespaceShift(s, t, lo, |r|);
  }

  /** A prefix of a suffix is a middle slice. */
  lemma SliceOfSuffix(s: string, lo: nat, n: nat)
    requires lo + n <= |s|
    ensures s[lo..][..n] == s[lo..lo + n]
  {
  }

  /** Trailing whitespace of a suffix is trailing whitespace of the whole. */
  lemma WhitespaceShift(s: string, t: string, lo: nat, n: nat)
    requires lo + |t| == |s| && t == s[lo..] && n <= |t|
    requires forall i :: n <= i < |t| ==> IsJsWhitespace(t[i])
    ensures forall i :: lo + n <= i < |s| ==> IsJsWhitespace(s[i])
  {
    forall i | lo + n <= i < |s| ensures IsJsWhitespace(s[i]) {
      assert s[i] == t[i - lo];
    }
  }

  /** Trimming twice is trimming once. */
  lemma TrimIdempotent(s: string)
    ensures Trim(Trim(s)) == Trim(s)
  {
    var r := Trim(s);
    if |r| > 0 {
      assert TrimStart(r) == r;
      assert TrimEnd(r) == r;
    }
  }

  /** Code units of one character in UTF-16. */
  function Utf16Units(c: char): nat {
    if c as int > 0xFFFF then 2 else 1
  }

  /** `s.length` in JavaScript: the number of UTF-16 code units. */
  function JsLength(s: string): (n: nat)
    ensures |s| <= n <= 2 * |s|
    ensures (forall i :: 0 <= i < |s| ==> s[i] as int <= 0xFFFF) ==> n == |s|
    ensures |s| == 1 ==> n == Utf16Units(s[0])
    decreases |s|
  {
    if |s| == 0 then 0 else Utf16Units(s[0]) + JsLength(s[1..])
  }

  /** Lengths add up over concatenation; with the one-character values
      this fixes the length of every string: one unit per character, and
      one more for each character outside the Basic Multilingual Plane. */
  lemma {:induction false} JsLengthAppend(a: string, b: string)
    ensures JsLength(a + b) == JsLength(a) + JsLength(b)
    decreases |a|
  {
    if |a| > 0 {
      JsLengthAppend(a[1..], b);
      assert (a + b)[0] == a[0] && (a + b)[1..] == a[1..] + b;
      assert JsLength(a + b) == Utf16Units(a[0]) + JsLength(a[1..] + b);
    } else {
      assert a + b == b;
    }
  }
}

=== FILE: wallet.dfy ===
/** The three request handlers that move a user's balance or record a money
    movement: bet placement, withdrawal request and deposit request. Each runs
    inside one database transaction; a refused request leaves every table as
    it was. */
module Wallet {
  import opened Wrappers
  import opened Http
  import opened Entities

  /** Smallest stake, withdrawal or deposit accepted. */
  const MinAmount: int := 1000
  /** Largest stake, withdrawal or deposit accepted. */
  const MaxAmount: int := 1_000_000_000

  /** The range checks the three handlers share, in the order they run. */
  function CheckAmount(amount: int): (r: Check<HttpError>)
    ensures r.Pass? <==> MinAmount <= amount <= MaxAmount
    ensures r.Fail? ==> r.error.status == 400
    ensures amount <= 0 ==> r == Fail(HttpError(400, NonPositiveAmount))
  {
    if amount <= 0 then Fail(HttpError(400, NonPositiveAmount))
    else if amount < MinAmount then Fail(HttpError(400, BelowMinimum))
    else if amount > MaxAmount then Fail(HttpError(400, AboveMaximum))
    else Pass
  }

  /** `users` after writing `newBalance` into the row of `u`, every other row
      and every other column untouched. */
  ghost predicate BalanceWritten(before: map<UserId, User>, after: map<UserId, User>, u: UserId, newBalance: int) {
    && u in before
    && after.Keys == before.Keys
    && after[u] == before[u].(balance := newBalance)
    && forall v | v in before && v != u :: after[v] == before[v]
  }

  /** `after` is `before` with exactly one more journal row, for user `u`,
      of the given kind, signed amount, balances and reference. */
  ghost predicate JournalAppended(before: seq<HistoryRow>, after: seq<HistoryRow>, u: UserId, kind: EntryKind,
                                  amount: int, balanceBefore: int, balanceAfter: int, ref: Option<nat>) {
    && |after| == |before| + 1 && after[..|before|] == before
    && after[|before|].userId == u && after[|before|].kind == kind && after[|before|].amount == amount
    && after[|before|].balanceBefore == balanceBefore && after[|before|].balanceAfter == balanceAfter
    && after[|before|].referenceId == ref
  }

  /** The body of `POST /api/bets`. A field that fails the handler's `!field`
      test (absent, null, 0 or the empty string) is `None`; `Some(n)` is a
      truthy id denoting row `n`, such as the string "0", which finds no row.
      `amount` is the value `BigInt` parses. */
  datatype BetRequest = BetRequest(eventId: Option<nat>, outcomeId: Option<nat>, amount: Option<int>)

  /** What a placed bet answers: the new bet's id and the balance now stored. */
  datatype BetReceipt = BetReceipt(betId: BetId, newBalance: int)

  /** The conditions under which a bet is accepted. The outcome must exist,
      since `bets.outcome_id` is a foreign key, but it is not checked against
      the event; the betting deadline is not checked. */
  ghost predicate BetAccepted(db: Db, caller: Option<UserId>, req: BetRequest) {
    && caller.Some? && req.eventId.Some? && req.outcomeId.Some? && req.amount.Some?
    && MinAmount <= req.amount.value <= MaxAmount
    && req.eventId.value in db.events && db.events[req.eventId.value].status == EventActive
    && caller.value in db.users
    && db.users[caller.value].balance >= req.amount.value
    && OutcomeExists(db.outcomes, req.outcomeId.value)
  }

  /** The request gets past the field and amount checks. */
  predicate BetWellFormed(caller: Option<UserId>, req: BetRequest) {
    caller.Some? && req.eventId.Some? && req.outcomeId.Some? && req.amount.Some? &&
    MinAmount <= req.amount.value <= MaxAmount
  }

  /** Place a bet: debit the stake, create a PENDING bet and one BET journal
      row. A bet naming no outcome row fails its insert after the balance
      write, and the rollback answers 500. */
  function PlaceBet(db: Db, caller: Option<UserId>, req: BetRequest): (r: Reply<Db, BetReceipt>)
    ensures RolledBack(db, r)
    ensures caller.None? ==> r.result == Failure(HttpError(401, Unauthenticated))
    ensures caller.Some? && (req.eventId.None? || req.outcomeId.None? || req.amount.None?) ==>
              r.result == Failure(HttpError(400, MissingField))
    ensures req.amount.Some? && !(MinAmount <= req.amount.value <= MaxAmount) ==>
              r.result.Failure? && r.result.error.status in {400, 401}
    ensures BetWellFormed(caller, req) &&
            (req.eventId.value !in db.events || db.events[req.eventId.value].status != EventActive) ==>
              r.result == Failure(HttpError(400, EventNotActive))
    ensures BetWellFormed(caller, req) && req.eventId.value in db.events &&
            db.events[req.eventId.value].status == EventActive ==>
              && (caller.value !in db.users ==> r.result == Failure(HttpError(404, UserNotFound)))
              && (caller.value in db.users && db.users[caller.value].balance < req.amount.value ==>
                    r.result == Failure(HttpError(400, InsufficientFunds)))
              && (caller.value in db.users && db.users[caller.value].balance >= req.amount.value &&
                  !OutcomeExists(db.outcomes, req.outcomeId.value) ==>
                    r.result == Failure(HttpError(500, Internal)))
    ensures r.result.Failure? && r.result.error.reason == InsufficientFunds ==>
              caller.value in db.users && db.users[caller.value].balance < req.amount.value
    ensures r.result.Success? ==>
              && BetWellFormed(caller, req)
              && caller.value in db.users && caller.value in r.state.users && req.eventId.value in db.events
              && OutcomeExists(db.outcomes, req.outcomeId.value)
    ensures r.result.Success? ==>
              var u, a := caller.value, req.amount.value;
              var old_, new_ := db.users[u].balance, r.state.users[u].balance;
              && db.events[req.eventId.value].status == EventActive
              && new_ == old_ - a && new_ >= 0
              && BalanceWritten(db.users, r.state.users, u, new_)
              && r.state.bets == db.bets + [Bet(db.next.bet, u, req.eventId.value, req.outcomeId.value, a, BetPending)]
              && JournalAppended(db.history, r.state.history, u, BetEntry, -a, old_, new_, Some(db.next.bet))
              && Balanced(r.state.history[|db.history|])
              && r.state.history[|db.history|].id == db.next.row
              && r.state.next == db.next.(bet := db.next.bet + 1, row := db.next.row + 1)
              && r.state.txns == db.txns && r.state.events == db.events && r.state.outcomes == db.outcomes
              && r.result.value == BetReceipt(db.next.bet, new_)
  {
    if caller.None? then Refuse(db, 401, Unauthenticated)
    else if req.eventId.None? || req.outcomeId.None? || req.amount.None? then Refuse(db, 400, MissingField)
    else
      var amount := req.amount.value;
      match CheckAmount(amount)
      case Fail(e) => Reply(db, Failure(e))
      case Pass =>
        var e := req.eventId.value;
        if e !in db.events || db.events[e].status != EventActive then Refuse(db, 400, EventNotActive)
        else
          var u := caller.value;
          if u !in db.users then Refuse(db, 404, UserNotFound)
          else
            var balance := db.users[u].balance;
            if balance < amount then Refuse(db, 400, InsufficientFunds)
            else if !OutcomeExists(db.outcomes, req.outcomeId.value) then Refuse(db, 500, Internal)
            else
              var newBalance := balance - amount;
              var bet := Bet(db.next.bet, u, e, req.outcomeId.value, amount, BetPending);
              var row := HistoryRow(db.next.row, u, BetEntry, -amount, balance, newBalance, Some(bet.id));
              var db' := db.(
                users := db.users[u := db.users[u].(balance := newBalance)],
                bets := db.bets + [bet],
                history := db.history + [row],
                next := db.next.(bet := db.next.bet + 1, row := db.next.row + 1));
              Reply(db', Success(BetReceipt(bet.id, newBalance)))
  }

  /** A bet is accepted exactly when the caller is signed in, every field is
      present, the stake is in range, the event exists and is ACTIVE, the
      caller's row exists, the balance covers the stake and the outcome
      exists. */
  lemma PlaceBetSucceedsIff(db: Db, caller: Option<UserId>, req: BetRequest)
    ensures PlaceBet(db, caller, req).result.Success? <==> BetAccepted(db, caller, req)
  {
  }

  /** Which existing outcome a bet names never decides whether it is
      accepted: in particular an outcome of another event does as well as
      one of the named event. */
  lemma PlaceBetIgnoresOutcome(db: Db, caller: Option<UserId>, e: Option<nat>, o1: OutcomeId, o2: OutcomeId, a: Option<int>)
    requires OutcomeExists(db.outcomes, o1) && OutcomeExists(db.outcomes, o2)
    ensures PlaceBet(db, caller, BetRequest(e, Some(o1), a)).result.Success? <==>
            PlaceBet(db, caller, BetRequest(e, Some(o2), a)).result.Success?
  {
    PlaceBetSucceedsIff(db, caller, BetRequest(e, Some(o1), a));
    PlaceBetSucceedsIff(db, caller, BetRequest(e, Some(o2), a));
  }

  /** What a withdrawal request answers. */
  datatype WithdrawReceipt = WithdrawReceipt(txnId: TxnId, amount: int, newBalance: int)

  /** Request a withdrawal: debit the balance at once, create a PENDING
      WITHDRAWAL transaction and one WITHDRAWAL journal row. */
  function Withdraw(db: Db, caller: Option<UserId>, amount: Option<int>): (r: Reply<Db, WithdrawReceipt>)
    ensures RolledBack(db, r)
    ensures caller.None? ==> r.result == Failure(HttpError(401, Unauthenticated))
    ensures caller.Some? && amount.None? ==> r.result == Failure(HttpError(400, MissingField))
    ensures amount.Some? && !(MinAmount <= amount.value <= MaxAmount) ==>
              r.result.Failure? && r.result.error.status in {400, 401}
    ensures r.result.Success? <==>
              && caller.Some? && amount.Some? && MinAmount <= amount.value <= MaxAmount
              && caller.value in db.users && db.users[caller.value].balance >= amount.value
    ensures r.result.Success? ==> caller.value in r.state.users
    ensures r.result.Success? ==>
              var u, a := caller.value, amount.value;
              var old_, new_ := db.users[u].balance, r.state.users[u].balance;
              && new_ == old_ - a && new_ >= 0
              && BalanceWritten(db.users, r.state.users, u, new_)
              && r.state.txns == db.txns + [Transaction(db.next.txn, u, WithdrawalTxn, a, TxnPending, None, db.users[u].walletAddress)]
              && JournalAppended(db.history, r.state.history, u, WithdrawalEntry, -a, old_, new_, Some(db.next.txn))
              && Balanced(r.state.history[|db.history|])
              && r.state.bets == db.bets && r.state.events == db.events && r.state.outcomes == db.outcomes
              && r.state.history[|db.history|].id == db.next.row
              && r.state.next == db.next.(txn := db.next.txn + 1, row := db.next.row + 1)
              && r.result.value == WithdrawReceipt(db.next.txn, a, new_)
  {
    if caller.None? then Refuse(db, 401, Unauthenticated)
    else if amount.None? then Refuse(db, 400, MissingField)
    else
      var a := amount.value;
      match CheckAmount(a)
      case Fail(e) => Reply(db, Failure(e))
      case Pass =>
        var u := caller.value;
        if u !in db.users then Refuse(db, 404, UserNotFound)
        else
          var balance := db.users[u].balance;
          if balance < a then Refuse(db, 400, InsufficientFunds)
          else
            var newBalance := balance - a;
            var txn := Transaction(db.next.txn, u, WithdrawalTxn, a, TxnPending, None, db.users[u].walletAddress);
            var row := HistoryRow(db.next.row, u, WithdrawalEntry, -a, balance, newBalance, Some(txn.id));
            var db' := db.(
              users := db.users[u := db.users[u].(balance := newBalance)],
              txns := db.txns + [txn],
              history := db.history + [row],
              next := db.next.(txn := db.next.txn + 1, row := db.next.row + 1));
            Reply(db', Success(WithdrawReceipt(txn.id, a, newBalance)))
  }

  /** What a deposit request answers. */
  datatype DepositReceipt = DepositReceipt(txnId: TxnId, amount: int, txHash: string, status: TxnStatus)

  /** Request a deposit: record a PENDING DEPOSIT transaction carrying the
      chain hash and one DEPOSIT journal row, without touching the balance.
      A missing or empty hash is refused; a hash too long for its column
      fails the insert, and the rollback answers 500. */
  function Deposit(db: Db, caller: Option<UserId>, amount: Option<int>, txHash: Option<string>): (r: Reply<Db, DepositReceipt>)
    ensures RolledBack(db, r)
    ensures r.state.users == db.users
    ensures caller.None? ==> r.result == Failure(HttpError(401, Unauthenticated))
    ensures caller.Some? && (amount.None? || txHash.None? || txHash == Some("")) ==>
              r.result == Failure(HttpError(400, MissingField))
    ensures amount.Some? && !(MinAmount <= amount.value <= MaxAmount) ==>
              r.result.Failure? && r.result.error.status in {400, 401}
    ensures caller.Some? && amount.Some? && txHash.Some? && txHash.value != "" &&
            MinAmount <= amount.value <= MaxAmount ==>
              && (caller.value !in db.users ==> r.result == Failure(HttpError(404, UserNotFound)))
              && (caller.value in db.users && !FitsVarchar(txHash.value) ==> r.result == Failure(HttpError(500, Internal)))
    ensures r.result.Success? <==>
              && caller.Some? && amount.Some? && txHash.Some? && txHash.value != ""
              && MinAmount <= amount.value <= MaxAmount && caller.value in db.users
              && FitsVarchar(txHash.value)
    ensures r.result.Success? ==>
              var u, a := caller.value, amount.value;
              var b := db.users[u].balance;
              && r.state.txns == db.txns + [Transaction(db.next.txn, u, DepositTxn, a, TxnPending, txHash, db.users[u].walletAddress)]
              && JournalAppended(db.history, r.state.history, u, DepositEntry, a, b, b, Some(db.next.txn))
              && !Balanced(r.state.history[|db.history|])
              && r.state.history[|db.history|].id == db.next.row
              && r.state.next == db.next.(txn := db.next.txn + 1, row := db.next.row + 1)
              && r.state.bets == db.bets && r.state.events == db.events && r.state.outcomes == db.outcomes
              && r.result.value == DepositReceipt(db.next.txn, a, txHash.value, TxnPending)
  {
    if caller.None? then Refuse(db, 401, Unauthenticated)
    else if amount.None? then Refuse(db, 400, MissingField)
    else if txHash.None? || txHash.value == "" then Refuse(db, 400, MissingField)
    else
      var a := amount.value;
      match CheckAmount(a)
      case Fail(e) => Reply(db, Failure(e))
      case Pass =>
        var u := caller.value;
        if u !in db.users then Refuse(db, 404, UserNotFound)
        else if !FitsVarchar(txHash.value) then Refuse(db, 500, Internal)
        else
          var balance := db.users[u].balance;
          var txn := Transaction(db.next.txn, u, DepositTxn, a, TxnPending, txHash, db.users[u].walletAddress);
          var row := HistoryRow(db.next.row, u, DepositEntry, a, balance, balance, Some(txn.id));
          var db' := db.(
            txns := db.txns + [txn],
            history := db.history + [row],
            next := db.next.(txn := db.next.txn + 1, row := db.next.row + 1));
          Reply(db', Success(DepositReceipt(txn.id, a, txHash.value, TxnPending)))
  }
}

=== FILE: wrappers.dfy ===
/** Failure-compatible wrappers used by every request handler of the model. */
module Wrappers {

  /** A value that may be absent: a missing request field, a nullable column. */
  datatype Option<+T> = None | Some(value: T) {

    /** The wrapped value, or `default` when absent. */
    function GetOr(default: T): T {
      match this
      case Some(v) => v
      case None => default
    }
  }

  /** The outcome of a computation that either produces a value or fails with an error. */
  datatype Result<+R, +E> = Success(value: R) | Failure(error: E)

  /** A pass/fail check that carries an error on failure. */
  datatype Check<+E> = Pass | Fail(error: E)
}
